=== FILE: README.md ===
# x509_cert: a Dafny model of the OpenSSL certificate resource

This project models the core of the Puppet `x509_cert` resource, which
manages an X.509 certificate through the `openssl` command line. It has
three parts:

- **The resource type**: how each parameter is validated, and the defaults
  the type fills in. This includes the key and template paths it derives
  from the certificate's path.
- **The reconciliation decision**: `exists?`, together with
  `old_cert_is_equal` and the key-algorithm dispatch of `private_key`.
  - `exists?` decides whether the certificate on disk is current.
  - `old_cert_is_equal` parses the certificate subject and picks the last
    `subjectAltName` extension.
  - It then compares the certificate with the template. Either the
    normalised subjectAltName values or the common name decide, depending
    on which template sections exist.
- **The argument list `create` hands to `openssl`**: in sign mode (a
  certificate request is given) or in generate mode (`req -new`). The
  properties are stated over the arguments grouped into options by the
  flags' arities. A flag that takes a value consumes the next argument
  whatever it looks like, so a user value can never be mistaken for a
  flag.

The modules:

| module | file | contents |
|---|---|---|
| `Results` | results.dfy | `Option`, `Result` and the raised errors |
| `Text` | text.dfy | Ruby `String#split`, `delete`, `gsub` with line anchors and plain `gsub`, as sequence functions |
| `Paths` | paths.dfy | `Pathname#absolute?`, `File.dirname`, `basename` and `extname` on Unix paths |
| `Parameters` | parameters.dfy | the type's parameters, validation and defaults |
| `Equivalence` | equivalence.dfy | `old_cert_is_equal` |
| `Provider` | provider.dfy | `private_key`'s dispatch and `exists?` |
| `Command` | command.dfy | `create`'s argument list, its option reader, and the corrected password argument |

Things that happen outside the code become inputs:

- Whether the certificate file exists, and whether the private key matches
  the certificate, are booleans in `Provider.Host`.
- The certificate is its subject line and its extensions, as OpenSSL
  reports them.
- The template is a map of sections, the content a read of the template
  file would give. The code never reads it (see "## Findings"), and the
  rest of the model uses the template as read.

## Model

| member | source | states |
|---|---|---|
| Paths.CollapseRoot | lib/puppet/type/x509_cert.rb:20-21 | As `File.dirname` does first, a leading run of "/" is collapsed to one. A relative path is unchanged, and an absolute one stays absolute with a single leading "/". |
| Paths.CollapseRootDropsSeparators | lib/puppet/type/x509_cert.rb:20-21 | Collapsing only removes "/" characters from the front: the result is a suffix of the path. |
| Paths.Dirname | lib/puppet/type/x509_cert.rb:21 | `dirname` is never empty, and it is "/", ".", or text without a trailing "/". |
| Paths.DirnamePrefix | lib/puppet/type/x509_cert.rb:21 | `dirname` is "." or a prefix of the path with its leading "/" run collapsed. |
| Paths.DirnameAbsolute | lib/puppet/type/x509_cert.rb:20-21 | The directory of an absolute path is absolute and starts with a single "/". |
| Paths.DoubledRootCollapses | lib/puppet/type/x509_cert.rb:19-22 | `dirname` of "//etc/c.crt" is "/etc", so its default key is "/etc/c.key". |
| Paths.DirnameAtRoot | lib/puppet/type/x509_cert.rb:21 | The directory of "/name", for a name without "/", is "/". |
| Paths.BasenameIsComponent | lib/puppet/type/x509_cert.rb:21 | `basename` contains no "/" unless it is "/" itself, and it is empty only for the empty path. |
| Paths.ComponentExtIsLastDot | lib/puppet/type/x509_cert.rb:21 | `extname` of a component is its suffix from the last dot on. That dot is not one of the leading dots, and no other dot follows it. The extension is "" exactly when no dot follows the leading dots. |
| Paths.Sibling | lib/puppet/type/x509_cert.rb:19-22 | The derived path ends with the suffix, and it is absolute whenever the certificate path is. |
| Paths.DirnameBasenameJoin | lib/puppet/type/x509_cert.rb:20-21 | Take an absolute path whose last separator is single, is not the root, and is not trailing. Its directory, "/" and its last component join to the path with its leading "/" run collapsed. |
| Paths.SiblingReplacesExtension | lib/puppet/type/x509_cert.rb:19-22 | For such a path, the derived default is the collapsed path with its extension replaced by the suffix. |
| Paths.SiblingAtRoot | lib/puppet/type/x509_cert.rb:19-22 | A certificate directly under "/" gets a default with a doubled leading "/". |
| Parameters.DefaultPathsAgree | lib/puppet/type/x509_cert.rb:59-62 | The default key and default template come from `path` alone and are absolute when it is. They share everything but the last three characters, "key" and "cnf". |
| Parameters.ValidatePath | lib/puppet/type/x509_cert.rb:9-14 | A path is accepted, unchanged, exactly when it is absolute and holds no NUL character. `Pathname.new` refuses a NUL first; otherwise a relative path raises "Path must be absolute". Either error names the parameter and the value. |
| Parameters.NulPathRejected | lib/puppet/type/x509_cert.rb:9-14 | The absolute path "/etc/a\0b.crt" is refused, so building fails on it whatever the other parameters are. |
| Parameters.FirstRejection | lib/puppet/type/x509_cert.rb:9-97 | For parameters that fail validation, the raised error names a supplied parameter whose value its validation rejects. No rejected parameter is declared before it. |
| Parameters.WithDefaults | lib/puppet/type/x509_cert.rb:17-98 | Filling in the defaults of acceptable parameters gives a valid resource. All paths are absolute, and `days` and `authentication` match their patterns. |
| Parameters.Build | lib/puppet/type/x509_cert.rb:7-99 | Building succeeds exactly when every supplied value passes validation. Otherwise it fails with a rejecting error. Each unsupplied parameter takes its default: key and template derived from `path`, days "3650", force, req_ext, server_only and client_only false, authentication "rsa". Each supplied value is kept as given, and `ca`, `password`, `authority_cnf` and `request` pass through. |
| Parameters.LaxDaysPattern | lib/puppet/type/x509_cert.rb:31-35 | The unanchored `\d+` accepts "-x509" and "about 10 years" as `days`, and rejects "forever". |
| Parameters.LaxAuthenticationPattern | lib/puppet/type/x509_cert.rb:95-99 | The unanchored `[dr]sa` accepts "xrsax" and "ecdsa" and rejects "ed25519". |
| Text.RubySplit | lib/puppet/provider/x509_cert/openssl.rb:34-35 | `split` gives separator-free fields and never ends on an empty field. Its fields are a prefix of the full split, which joins back to the input. Every field of the full split it drops is empty. |
| Text.SplitAllJoin | lib/puppet/provider/x509_cert/openssl.rb:34-35 | Splitting the join of separator-free fields gives the fields back. |
| Text.DeleteInsert | lib/puppet/provider/x509_cert/openssl.rb:43 | `delete(' ')` is blind to a space inserted anywhere. |
| Text.StripAnchoredQuotesSingleLine | lib/puppet/provider/x509_cert/openssl.rb:43 | On a newline-free string, removing quotes at line starts and line ends drops at most one leading and one trailing quote. |
| Text.DeleteAppend | lib/puppet/provider/x509_cert/openssl.rb:43 | `delete` works piecewise: deleting from a concatenation concatenates the deletions. |
| Text.DeleteAbsent | lib/puppet/provider/x509_cert/openssl.rb:43 | `delete` leaves a string without the character unchanged. |
| Text.StripAnchoredQuotesNoQuote | lib/puppet/provider/x509_cert/openssl.rb:43 | The quote substitution leaves a string without quotes unchanged. |
| Text.ReplaceAllCopies | lib/puppet/provider/x509_cert/openssl.rb:43 | `gsub('IPAddress','IP')` copies the text before the first occurrence of the word unchanged. |
| Text.ReplaceAllNoOccurrence | lib/puppet/provider/x509_cert/openssl.rb:43 | Text in which the word never occurs is unchanged. |
| Text.ReplaceAllAtFirstOccurrence | lib/puppet/provider/x509_cert/openssl.rb:43 | The first occurrence is replaced, what precedes it is kept, and the scan resumes just after it. |
| Equivalence.ScanAltName | lib/puppet/provider/x509_cert/openssl.rb:28-31 | The extension loop yields the value of the last `subjectAltName` extension. With none, it yields the starting value. |
| Equivalence.LastSanIsCompared | lib/puppet/provider/x509_cert/openssl.rb:28-31 | A certificate's alt name is the value of its last `subjectAltName` extension. |
| Equivalence.FieldOfPair | lib/puppet/provider/x509_cert/openssl.rb:35 | A subject part `k=v` reads as key `k` and value `v`. An empty value reads as `nil`, and "=" alone has no key. |
| Equivalence.FieldOfTriple | lib/puppet/provider/x509_cert/openssl.rb:35 | A subject part `k=v=w` reads as value `v`: everything after the second "=" is lost. |
| Equivalence.CollectKeepsAbsent | lib/puppet/provider/x509_cert/openssl.rb:33-37 | Subject parts without a key leave that key's entry as it was. |
| Equivalence.CollectLastWins | lib/puppet/provider/x509_cert/openssl.rb:33-37 | The subject data holds, for each key, the value of the last part with that key. |
| Equivalence.CommonNameIsLastCN | lib/puppet/provider/x509_cert/openssl.rb:33-37 | `cdata['CN']` is the value of the last "/"-separated part whose key is "CN", or `nil` when no part has that key. |
| Equivalence.SanMatchesSingleLine | lib/puppet/provider/x509_cert/openssl.rb:43 | For newline-free values the comparison is exact. Both sides delete spaces and drop one edge quote at each end. Only the certificate side rewrites "IPAddress" to "IP". |
| Equivalence.SpacesNeverMatter | lib/puppet/provider/x509_cert/openssl.rb:43 | Inserting a space anywhere in either value never changes the verdict. |
| Equivalence.OldCertIsEqual | lib/puppet/provider/x509_cert/openssl.rb:25-51 | The certificate is unequal exactly in two cases. Either a `req_ext` section has a `subjectAltName` that does not match the certificate's, or there is no `req_ext` section and the `commonName` mismatches. |
| Equivalence.OldCertIsEqualAsWritten | lib/puppet/provider/x509_cert/openssl.rb:39-41 | As written, the INI file object is never read, so every certificate compares equal. |
| Equivalence.UnreadTemplateHidesMismatch | lib/puppet/provider/x509_cert/openssl.rb:39-44 | A certificate without `subjectAltName` differs from a template asking for "DNS:a", yet the code as written calls it equal. |
| Equivalence.ReqExtIsAuthoritative | lib/puppet/provider/x509_cert/openssl.rb:41-44 | With a `req_ext` section, the verdict is the subjectAltName comparison, true without the key. The subject and the `req_distinguished_name` section cannot change it. |
| Equivalence.ReqExtWithoutSanIsEqual | lib/puppet/provider/x509_cert/openssl.rb:41-44 | A `req_ext` section without `subjectAltName` makes any certificate equal. |
| Equivalence.CommonNameDecides | lib/puppet/provider/x509_cert/openssl.rb:45-50 | Without `req_ext`, the certificate is unequal exactly when the template's `commonName` is set and differs from the CN. With neither section it is equal. |
| Equivalence.MissingSanComparesAsEmpty | lib/puppet/provider/x509_cert/openssl.rb:28-44 | Without a `subjectAltName` extension the alt name is "". It then equals only a template value that normalises to "". |
| Equivalence.ShortFormTemplateMatches | lib/puppet/provider/x509_cert/openssl.rb:43 | The template's "DNS:n, IP: a" matches the certificate's "DNS:n, IPAddress:a", for every name and address free of spaces, quotes and "I". |
| Equivalence.ExampleDnsAndIpMatch | lib/puppet/provider/x509_cert/openssl.rb:43 | "DNS:example.com, IP: 10.0.0.1" matches "DNS:example.com, IPAddress:10.0.0.1". |
| Equivalence.LongFormTemplateNeverMatches | lib/puppet/provider/x509_cert/openssl.rb:43 | A template writing "IPAddress:a" never matches a certificate with the same text, because only the certificate side is rewritten. |
| Equivalence.CommonNameWithEquals | lib/puppet/provider/x509_cert/openssl.rb:33-47 | The subject "/CN=a=b" yields CN "a", so a template asking for "a=b" is never satisfied. |
| Provider.PrivateKeyAlgorithm | lib/puppet/provider/x509_cert/openssl.rb:7-17 | "dsa" selects DSA and "rsa" selects RSA. Any other value raises an unknown-authentication error naming it. |
| Provider.Exists | lib/puppet/provider/x509_cert/openssl.rb:53-65 | With no file, false. Otherwise true exactly when, under `force`, the dispatch succeeds and the key matches, and the certificate equals the template. It raises exactly under `force` with an algorithm the dispatch rejects. |
| Provider.WithoutForceKeyIgnored | lib/puppet/provider/x509_cert/openssl.rb:55-61 | Without `force`, `exists?` is the template comparison, whatever the key match and the algorithm. |
| Provider.ForcedKeyMismatchIsAbsent | lib/puppet/provider/x509_cert/openssl.rb:55-57 | With `force` and an algorithm the dispatch accepts, a mismatched key gives false even for a certificate equal to the template. |
| Provider.AcceptedAuthenticationMayRaise | lib/puppet/provider/x509_cert/openssl.rb:9-15 | "xrsax" passes the type's validation, yet a forced `exists?` raises on it. |
| Command.RenderRead | lib/puppet/provider/x509_cert/openssl.rb:110 | Grouping any argument list into options and writing them out gives the list back. |
| Command.ReadRender | lib/puppet/provider/x509_cert/openssl.rb:110 | Options that carry exactly the values their flags take are read back exactly as written. |
| Command.Create | lib/puppet/provider/x509_cert/openssl.rb:67-111 | The flattened argument list, grouped by the flags' arities, gives exactly the options of the selected mode. Then come `-out path` and the profile's extension section. |
| Command.FlagsAreFixed | lib/puppet/provider/x509_cert/openssl.rb:67-107 | Every flag read is one of the fixed flags or the password argument. No user value becomes a flag. |
| Command.SignModeArguments | lib/puppet/provider/x509_cert/openssl.rb:68-75 | With a request, the arguments begin with `ca -create_serial -batch -in <request> -config <authority_cnf>`. They contain no `-key`, `-x509`, `-nodes` or `-passin…` flag. |
| Command.GenerateModeArguments | lib/puppet/provider/x509_cert/openssl.rb:77-81 | Without a request, the arguments begin with `req -new -key <private_key>`. |
| Command.SelfSignIffCa | lib/puppet/provider/x509_cert/openssl.rb:83 | `-x509` is a flag exactly when generating with `ca` set. |
| Command.DaysIffGenerating | lib/puppet/provider/x509_cert/openssl.rb:86-88 | `-days` is a flag exactly when generating with `days` set, and its value is `days`. |
| Command.KeyProtectionExactlyOne | lib/puppet/provider/x509_cert/openssl.rb:90-94 | When generating, exactly one of `-nodes` (no password) and the password argument (a password) appears. When signing, neither appears. |
| Command.ReqExtIffGenerating | lib/puppet/provider/x509_cert/openssl.rb:95 | `-extensions req_ext` appears exactly when generating with `req_ext` set. |
| Command.ProfileSelection | lib/puppet/provider/x509_cert/openssl.rb:101-107 | Both flags select "ssl_both". Otherwise `client_only` selects "clientAuth", else `server_only` selects "serverAuth", else no profile. |
| Command.OutputThenProfile | lib/puppet/provider/x509_cert/openssl.rb:98-107 | `-out path` is the last option, or the last but one when the profile's extension section follows it. |
| Command.ProfileFollowsReqExt | lib/puppet/provider/x509_cert/openssl.rb:95-107 | With `req_ext` and a profile, two extension sections are named and the profile's comes last. |
| Command.FlagLikeDaysIsAValue | lib/puppet/provider/x509_cert/openssl.rb:83-88 | A `days` of "-x509", which the type accepts, is written and, grouped by the flags' arities, is the value of `-days`, never the self-signing flag. |
| Command.GenerateScenario | lib/puppet/provider/x509_cert/openssl.rb:77-107 | The complete argument list for a self-signed CA with days, no password, `req_ext` and the server profile. |
| Command.SignScenario | lib/puppet/provider/x509_cert/openssl.rb:68-107 | The complete argument list for signing a request with the client profile. |
| Command.PasswordIsOneArgument | lib/puppet/provider/x509_cert/openssl.rb:90-91 | As written, the password travels as the single argument "-passin pass:<pw>", and no `-passin` flag is read. |
| Command.IntendedKeyProtection | lib/puppet/provider/x509_cert/openssl.rb:90-94 | The corrected key protection is `-passin` exactly when a password is set, with the single value "pass:<password>". Joined with a space, flag and value give the argument as written. Without a password it is `-nodes`, as written. |
| Command.CreateIntended | lib/puppet/provider/x509_cert/openssl.rb:67-111 | The corrected argument list is read as the same options with `-passin pass:<pw>` as flag and value. It equals `create` when there is no password or when signing. |

## Left out

- Reading the certificate, key and template files. Parsing them with
  OpenSSL and the INI parser is also left out. The parse results are
  inputs.
- `check_private_key` (a foreign crypto call) is an input boolean. So is
  `Pathname#exist?`.
- `destroy`, running the `openssl` process, and the `Puppet.info` log line
  are left out. They are I/O.
- `autorequire`, `ensurable` and `refresh` are Puppet framework machinery,
  not decisions of this resource.
- Parameters.Build: `force`, `req_ext`, `server_only` and `client_only` are
  booleans here that default to false. Puppet stores a parameter default
  only when it is truthy. So `defaultto false` (x509_cert.rb:40, 50, 87,
  92) leaves the parameter unset (`nil`), and an explicit `false` is munged
  to the truthy symbol `:false`. Puppet's framework is not part of this
  model, and two consequences are not modelled:
  - The key check at openssl.rb:55 also runs for an explicit
    `force => false`.
  - openssl.rb:95 tests `resource[:req_ext] != :false`, which holds for an
    unset `req_ext`. So in generate mode the code writes
    `-extensions req_ext` unless `req_ext => false` is given. The model
    defaults `reqExt` to false and then omits it.
- Command.Read: groups the arguments by the flags' arities only. It takes
  any unknown dash-word for a flag without a value and never checks a
  value. `openssl`'s own option parser rejects an unrecognised option, and
  a `-days` value that is not a number, and ends the run with an error.
  Neither is modelled.
- Parameters.FirstRejection: `force` and `req_ext` accept only true and
  false (`newvalues(:true, :false)`). Their supplied values are booleans
  here, so the error for any other value is not modelled.
- Parameters.RawParams: `ca` is a plain boolean because it has neither
  default nor validation and is read only for its truth value.
- Provider.PrivateKeyAlgorithm: `authentication` is text here, and a
  supplied "dsa" or "rsa" selects that algorithm. The code compares it
  with the symbols `:dsa` and `:rsa` (openssl.rb:9, 11). Puppet's framework
  is not part of this model. It keeps a supplied value that matches the
  pattern `/[dr]sa/` (x509_cert.rb:97) as the string itself, and a string
  never equals a symbol. So in the code only the default `:rsa`
  (x509_cert.rb:98) selects RSA. Every supplied value, "rsa" and "dsa"
  included, makes a forced `exists?` raise "Unknown authentication type".
  The model does not reproduce that.
- `authority_cnf` is an optional string with no default and no validation.
  Its declaration (type file lines 71-74) is not valid Ruby. An unset
  value is written as "" in sign mode; what the process call does with a
  `nil` argument is not modelled.
- `days` defaults to the text "3650" (the integer 3650 in the code). The
  provider only writes it as an argument.
- Three details of the comparison, as the code has them (openssl.rb:41-45):
  - The "IPAddress"→"IP" rewrite is applied to the certificate's value,
    not the template's.
  - Only space characters are deleted, not all whitespace.
  - Precedence depends on whether the `req_ext` section exists, not on
    whether its key does.
- `File.extname` follows current Ruby: leading dots are skipped, and a
  trailing "." is an extension.

## Findings

| source | as written | input that shows it | evidently intended | confidence | as-written member | corrected member |
|---|---|---|---|---|---|---|
| lib/puppet/provider/x509_cert/openssl.rb:91 | The key password is pushed as one string, `"-passin pass:#{password}"`. After flattening it is one argument. | password "secret" (generate mode): the argument list holds the single argument "-passin pass:secret". `openssl` does not recognise it as an option, so it rejects the argument list and the run fails without creating a certificate. | Two arguments, "-passin" and "pass:secret", like the other flag/value pairs pushed as arrays. | medium, not executed | Command.PasswordIsOneArgument | Command.CreateIntended |
| lib/puppet/provider/x509_cert/openssl.rb:40 | The template's INI file object is created with `PhysicalFile.new` but never read, so `get_section` finds no section. `old_cert_is_equal` then returns true for every readable certificate. | template `[req_ext]` with `subjectAltName = DNS:a`, certificate with no subjectAltName extension: the values differ, yet the certificate is kept. | Read the file (`ini_file.read`) before looking up sections. | medium, not executed (Puppet's IniConfig is not part of this model) | Equivalence.OldCertIsEqualAsWritten | Equivalence.OldCertIsEqual |

=== FILE: command.dfy ===
/**
 * The argument list the provider's `create` passes to `openssl`. Its
 * properties are stated over the argument list grouped into options by the
 * flags' arities: a flag that takes a value consumes the next argument,
 * whatever that argument looks like, so a user value such as a `days` of
 * "-x509" (which the type accepts) is a value and never a flag.
 */
module Command {
  import opened Results
  import opened Parameters

  /** One option of the grouped argument list: a flag (or subcommand) and
      the arguments it consumes. */
  datatype Opt = Opt(name: string, values: seq<string>)

  /** The flags of this argument list that consume one value. */
  predicate TakesValue(name: string) {
    name in {"-in", "-config", "-key", "-days", "-extensions", "-out", "-passin"}
  }

  function Arity(name: string): nat {
    if TakesValue(name) then 1 else 0
  }

  /** An option carrying exactly the values its flag consumes. */
  predicate WellFormed(o: Opt) {
    |o.values| == Arity(o.name)
  }

  predicate AllWellFormed(opts: seq<Opt>) {
    forall o | o in opts :: WellFormed(o)
  }

  /** The arguments an option list is written as. */
  function Render(opts: seq<Opt>): (args: seq<string>)
    ensures |args| >= |opts|
  {
    if opts == [] then [] else [opts[0].name] + opts[0].values + Render(opts[1..])
  }

  /** Groups arguments into options, left to right; a value-taking flag at
      the very end gets no value. */
  function Read(args: seq<string>): (opts: seq<Opt>)
    ensures |opts| <= |args|
    ensures forall i | 0 <= i < |opts| :: |opts[i].values| <= Arity(opts[i].name)
    decreases |args|
  {
    if args == [] then []
    else
      var n := if |args| - 1 < Arity(args[0]) then |args| - 1 else Arity(args[0]);
      [Opt(args[0], args[1..1 + n])] + Read(args[1 + n..])
  }

  /** Reading loses nothing: the options read from any argument list are
      written back as that list. */
  lemma {:induction false} RenderRead(args: seq<string>)
    ensures Render(Read(args)) == args
    decreases |args|
  {
    if args != [] {
      var n := if |args| - 1 < Arity(args[0]) then |args| - 1 else Arity(args[0]);
      RenderRead(args[1 + n..]);
      var opts := Read(args);
      assert opts[0] == Opt(args[0], args[1..1 + n]);
      assert opts[1..] == Read(args[1 + n..]);
      assert [args[0]] + args[1..1 + n] + args[1 + n..] == args;
    }
  }

  /** Well-formed options are read back exactly as written. */
  lemma {:induction false} ReadRender(opts: seq<Opt>)
    requires AllWellFormed(opts)
    ensures Read(Render(opts)) == opts
    decreases |opts|
  {
    if opts != [] {
      var o := opts[0];
      var rest := Render(opts[1..]);
      var args := Render(opts);
      assert args == [o.name] + o.values + rest;
      assert args[0] == o.name;
      assert args[1..1 + |o.values|] == o.values;
      assert args[1 + |o.values|..] == rest;
      assert o in opts;
      assert AllWellFormed(opts[1..]) by {
        forall x | x in opts[1..]
          ensures WellFormed(x)
        {
          assert x in opts;
        }
      }
      ReadRender(opts[1..]);
      assert opts == [o] + opts[1..];
    }
  }

  /** Writing distributes over concatenation. */
  lemma {:induction false} RenderAppend(a: seq<Opt>, b: seq<Opt>)
    ensures Render(a + b) == Render(a) + Render(b)
    decreases |a|
  {
    if a == [] {
      assert a + b == b;
    } else {
      assert (a + b)[1..] == a[1..] + b;
      RenderAppend(a[1..], b);
    }
  }

  /** Some option of `opts` has flag `name`. */
  predicate HasFlag(opts: seq<Opt>, name: string) {
    exists o | o in opts :: o.name == name
  }

  /** The key-protection option: the password as a single argument
      "-passin pass:<password>", or "-nodes" for an unencrypted key. */
  function KeyProtection(password: Option<string>): Opt {
    match password
    case Some(pw) => Opt("-passin pass:" + pw, [])
    case None => Opt("-nodes", [])
  }

  /** Sign mode: the CA signs the request with the authority's
      configuration (an unset `authority_cnf` is written as ""). */
  function SignOptions(request: string, authorityCnf: Option<string>): seq<Opt> {
    [Opt("ca", []), Opt("-create_serial", []), Opt("-batch", []),
     Opt("-in", [request]), Opt("-config", [authorityCnf.GetOr("")])]
  }

  /** Generate mode: a new request from the private key and template,
      self-signed when `ca` is set. */
  function GenerateOptions(d: Resource, protection: Opt): seq<Opt> {
    [Opt("req", []), Opt("-new", []), Opt("-key", [d.privateKey])]
    + (if d.ca then [Opt("-x509", [])] else [])
    + [Opt("-config", [d.template])]
    + (if d.days.Some? then [Opt("-days", [d.days.value])] else [])
    + [protection]
    + (if d.reqExt then [Opt("-extensions", ["req_ext"])] else [])
  }

  /** The profile name selected by `server_only` and `client_only`. */
  function ProfileName(serverOnly: bool, clientOnly: bool): Option<string> {
    if serverOnly && clientOnly then Some("ssl_both")
    else if clientOnly then Some("clientAuth")
    else if serverOnly then Some("serverAuth")
    else None
  }

  function ProfileOptions(serverOnly: bool, clientOnly: bool): seq<Opt> {
    match ProfileName(serverOnly, clientOnly)
    case Some(p) => [Opt("-extensions", [p])]
    case None => []
  }

  /** The options of the mode `request` selects. */
  function ModeOptions(d: Resource, protection: Opt): seq<Opt> {
    if d.request.Some? then SignOptions(d.request.value, d.authorityCnf)
    else GenerateOptions(d, protection)
  }

  /** The option structure of `create` with a given key protection. */
  function Options(d: Resource, protection: Opt): seq<Opt> {
    ModeOptions(d, protection) + [Opt("-out", [d.path])] + ProfileOptions(d.serverOnly, d.clientOnly)
  }

  /** Every option `create` writes carries exactly the values its flag
      takes, whichever key protection is used, provided the protection
      option does. */
  lemma OptionsWellFormed(d: Resource, protection: Opt)
    requires WellFormed(protection)
    ensures AllWellFormed(Options(d, protection))
  {
    ModeWellFormed(d, protection);
    var tail := [Opt("-out", [d.path])] + ProfileOptions(d.serverOnly, d.clientOnly);
    assert AllWellFormed(tail);
    assert Options(d, protection) == ModeOptions(d, protection) + tail;
  }

  lemma ModeWellFormed(d: Resource, protection: Opt)
    requires WellFormed(protection)
    ensures AllWellFormed(ModeOptions(d, protection))
  {
    if d.request.None? {
      var a := [Opt("req", []), Opt("-new", []), Opt("-key", [d.privateKey])];
      var b := if d.ca then [Opt("-x509", [])] else [];
      var c := [Opt("-config", [d.template])];
      var e := if d.days.Some? then [Opt("-days", [d.days.value])] else [];
      var f := if d.reqExt then [Opt("-extensions", ["req_ext"])] else [];
      assert AllWellFormed(a) && AllWellFormed(b) && AllWellFormed(c);
      assert AllWellFormed(e) && AllWellFormed(f);
      assert GenerateOptions(d, protection) == a + b + c + e + [protection] + f;
    }
  }

  /** The as-written password argument is not a value-taking flag. */
  lemma KeyProtectionWellFormed(password: Option<string>)
    ensures WellFormed(KeyProtection(password))
  {
    if password.Some? {
      assert |KeyProtection(password).name| > 11;
    }
  }

  /** The options of `create` with the password as written. */
  function Parsed(d: Resource): seq<Opt> {
    Options(d, KeyProtection(d.password))
  }

  /** `create`: the flat argument list handed to `openssl`; grouped by the
      flags' arities it gives back exactly the options `Parsed` lists. */
  function Create(d: Resource): (argv: seq<string>)
    ensures Read(argv) == Parsed(d)
    ensures Render(Read(argv)) == argv
  {
    var opts := Options(d, KeyProtection(d.password));
    KeyProtectionWellFormed(d.password);
    OptionsWellFormed(d, KeyProtection(d.password));
    ReadRender(opts);
    Render(opts)
  }

  /** The flags `create` can write besides the password argument. */
  predicate FixedFlag(name: string) {
    name in {"ca", "-create_serial", "-batch", "-in", "-config", "req", "-new", "-key",
             "-x509", "-days", "-nodes", "-extensions", "-out"}
  }

  /** Each flag and each value of an option is among the written arguments. */
  lemma {:induction false} RenderContains(opts: seq<Opt>, i: nat)
    requires i < |opts|
    ensures opts[i].name in Render(opts)
    ensures forall v | v in opts[i].values :: v in Render(opts)
    decreases i
  {
    if i > 0 {
      RenderContains(opts[1..], i - 1);
      assert opts[1..][i - 1] == opts[i];
    }
  }

  /** A flag occurs in a concatenation exactly when it occurs in a part. */
  lemma HasFlagAppend(a: seq<Opt>, b: seq<Opt>, name: string)
    ensures HasFlag(a + b, name) <==> HasFlag(a, name) || HasFlag(b, name)
  {
    if HasFlag(a + b, name) {
      var o :| o in a + b && o.name == name;
      assert o in a || o in b;
    }
    if HasFlag(a, name) {
      var o :| o in a && o.name == name;
      assert o in a + b;
    }
    if HasFlag(b, name) {
      var o :| o in b && o.name == name;
      assert o in a + b;
    }
  }

  /** The flags after the mode's options: "-out" and "-extensions" only. */
  lemma TailFlags(d: Resource, name: string)
    requires name != "-out" && name != "-extensions"
    ensures !HasFlag([Opt("-out", [d.path])] + ProfileOptions(d.serverOnly, d.clientOnly), name)
  {
  }

  /** The flags of sign mode. */
  lemma SignFlags(request: string, authorityCnf: Option<string>, name: string)
    requires name !in ["ca", "-create_serial", "-batch", "-in", "-config"]
    ensures !HasFlag(SignOptions(request, authorityCnf), name)
  {
  }

  /** The flags of generate mode: besides its fixed flags, only the key
      protection's. */
  lemma GenerateFlags(d: Resource, protection: Opt, name: string)
    requires name !in ["req", "-new", "-key", "-x509", "-config", "-days", "-extensions"]
    ensures HasFlag(GenerateOptions(d, protection), name) <==> protection.name == name
  {
    var g := GenerateOptions(d, protection);
    if protection.name == name {
      assert protection in g;
    }
  }

  /** A flag other than the fixed ones occurs exactly when the mode's
      options carry it. */
  lemma ParsedFlags(d: Resource, name: string)
    requires name != "-out" && name != "-extensions"
    ensures HasFlag(Parsed(d), name) <==> HasFlag(ModeOptions(d, KeyProtection(d.password)), name)
  {
    var tail := [Opt("-out", [d.path])] + ProfileOptions(d.serverOnly, d.clientOnly);
    var m := ModeOptions(d, KeyProtection(d.password));
    assert Parsed(d) == m + tail;
    HasFlagAppend(m, tail, name);
    TailFlags(d, name);
  }

  /** The as-written password argument is neither a fixed flag nor the
      `-passin` flag itself. */
  lemma PasswordArgumentIsNoFixedFlag(pw: string)
    ensures !FixedFlag("-passin pass:" + pw)
    ensures "-passin pass:" + pw != "-passin"
  {
    var n := "-passin pass:" + pw;
    assert n[1] == 'p' && |n| > 7;
  }

  /** No user-supplied value is ever read as a flag: every flag is a fixed
      one or the password argument. */
  lemma FlagsAreFixed(d: Resource)
    ensures forall o | o in Parsed(d) ::
              FixedFlag(o.name) || (d.password.Some? && o.name == "-passin pass:" + d.password.value)
  {
    var opts := Parsed(d);
    forall o | o in opts
      ensures FixedFlag(o.name) || (d.password.Some? && o.name == "-passin pass:" + d.password.value)
    {
    }
  }

  /** Writing an option in front of others. */
  lemma RenderCons(o: Opt, rest: seq<Opt>)
    ensures Render([o] + rest) == [o.name] + o.values + Render(rest)
  {
    assert ([o] + rest)[0] == o;
    assert ([o] + rest)[1..] == rest;
  }

  /** The arguments sign mode writes before the output option. */
  lemma RenderSign(request: string, authorityCnf: Option<string>)
    ensures Render(SignOptions(request, authorityCnf))
            == ["ca", "-create_serial", "-batch", "-in", request, "-config", authorityCnf.GetOr("")]
  {
    var o0, o1, o2 := Opt("ca", []), Opt("-create_serial", []), Opt("-batch", []);
    var o3, o4 := Opt("-in", [request]), Opt("-config", [authorityCnf.GetOr("")]);
    var r4 := [o4] + [];
    var r3 := [o3] + r4;
    var r2 := [o2] + r3;
    var r1 := [o1] + r2;
    assert SignOptions(request, authorityCnf) == [o0] + r1;
    RenderCons(o4, []);
    RenderCons(o3, r4);
    RenderCons(o2, r3);
    RenderCons(o1, r2);
    RenderCons(o0, r1);
  }

  /** The arguments `create` writes start with those of the mode. */
  lemma CreateStartsWithMode(d: Resource)
    ensures Render(ModeOptions(d, KeyProtection(d.password))) <= Create(d)
  {
    var m := ModeOptions(d, KeyProtection(d.password));
    var tail := [Opt("-out", [d.path])] + ProfileOptions(d.serverOnly, d.clientOnly);
    assert Parsed(d) == m + tail;
    assert Render(Parsed(d)) == Create(d);
    RenderAppend(m, tail);
  }

  /** The flags `create` writes in sign mode. */
  predicate SignFlag(name: string) {
    name in {"ca", "-create_serial", "-batch", "-in", "-config", "-out", "-extensions"}
  }

  /** In sign mode every flag read is a sign-mode flag. */
  lemma SignModeFlags(d: Resource)
    requires d.request.Some?
    ensures forall o | o in Parsed(d) :: SignFlag(o.name)
  {
    var m := SignOptions(d.request.value, d.authorityCnf);
    var tail := [Opt("-out", [d.path])] + ProfileOptions(d.serverOnly, d.clientOnly);
    assert Parsed(d) == m + tail;
  }

  /** No sign-mode flag is a key password argument. */
  lemma SignFlagIsNoPassword(name: string)
    requires SignFlag(name)
    ensures !("-passin" <= name)
  {
    if |name| >= 2 {
      assert name[1] != 'p';
    }
  }

  /** Sign mode starts with "ca", the request and the authority's
      configuration, and asks for no key, self-signing, unencrypted key or
      key password. */
  lemma SignModeArguments(d: Resource)
    requires d.request.Some?
    ensures |Create(d)| >= 7
    ensures Create(d)[..7]
            == ["ca", "-create_serial", "-batch", "-in", d.request.value, "-config", d.authorityCnf.GetOr("")]
    ensures !HasFlag(Parsed(d), "-key") && !HasFlag(Parsed(d), "-x509") && !HasFlag(Parsed(d), "-nodes")
    ensures forall o | o in Parsed(d) :: !("-passin" <= o.name)
  {
    CreateStartsWithMode(d);
    RenderSign(d.request.value, d.authorityCnf);
    ParsedFlags(d, "-key");
    ParsedFlags(d, "-x509");
    ParsedFlags(d, "-nodes");
    SignFlags(d.request.value, d.authorityCnf, "-key");
    SignFlags(d.request.value, d.authorityCnf, "-x509");
    SignFlags(d.request.value, d.authorityCnf, "-nodes");
    SignModeFlags(d);
    forall o | o in Parsed(d)
      ensures !("-passin" <= o.name)
    {
      SignFlagIsNoPassword(o.name);
    }
  }

  /** Generate mode starts with "req", "-new" and the private key. */
  lemma GenerateModeArguments(d: Resource)
    requires d.request.None?
    ensures |Create(d)| >= 4
    ensures Create(d)[..4] == ["req", "-new", "-key", d.privateKey]
  {
    CreateStartsWithMode(d);
    var p := KeyProtection(d.password);
    var g := GenerateOptions(d, p);
    var head := [Opt("req", []), Opt("-new", []), Opt("-key", [d.privateKey])];
    assert g == head + g[3..];
    RenderAppend(head, g[3..]);
    RenderCons(head[2], []);
    assert head[2..] == [head[2]] + [];
    RenderCons(head[1], head[2..]);
    assert head[1..] == [head[1]] + head[2..];
    RenderCons(head[0], head[1..]);
    assert head == [head[0]] + head[1..];
  }

  /** Self-signing is asked for exactly when generating with `ca` set. */
  lemma SelfSignIffCa(d: Resource)
    ensures HasFlag(Parsed(d), "-x509") <==> d.request.None? && d.ca
  {
    var opts := Parsed(d);
    if d.request.None? && d.ca {
      assert opts[3] == Opt("-x509", []);
    }
  }

  /** A validity period is passed exactly when generating with `days` set,
      and it is the `days` value. */
  lemma DaysIffGenerating(d: Resource)
    ensures HasFlag(Parsed(d), "-days") <==> d.request.None? && d.days.Some?
    ensures d.request.None? && d.days.Some? ==> Opt("-days", [d.days.value]) in Parsed(d)
  {
    var opts := Parsed(d);
    if d.request.None? && d.days.Some? {
      var k := if d.ca then 5 else 4;
      assert opts[k] == Opt("-days", [d.days.value]);
    }
  }

  /** When generating, the key is protected by exactly one of the password
      argument and "-nodes"; when signing, by neither. */
  lemma KeyProtectionExactlyOne(d: Resource)
    ensures HasFlag(Parsed(d), "-nodes") <==> d.request.None? && d.password.None?
    ensures d.password.Some?
            ==> (HasFlag(Parsed(d), "-passin pass:" + d.password.value) <==> d.request.None?)
  {
    ProtectionFlag(d, "-nodes");
    if d.password.Some? {
      PasswordArgumentIsNoFixedFlag(d.password.value);
      ProtectionFlag(d, "-passin pass:" + d.password.value);
    }
  }

  /** A flag no mode writes on its own occurs exactly when generating with
      a key protection of that name. */
  lemma ProtectionFlag(d: Resource, name: string)
    requires name !in {"ca", "-create_serial", "-batch", "-in", "-config", "-out", "-extensions"}
    requires name !in {"req", "-new", "-key", "-x509", "-days"}
    ensures HasFlag(Parsed(d), name) <==> d.request.None? && KeyProtection(d.password).name == name
  {
    ParsedFlags(d, name);
    if d.request.Some? {
      SignFlags(d.request.value, d.authorityCnf, name);
    } else {
      GenerateFlags(d, KeyProtection(d.password), name);
    }
  }

  /** The `req_ext` extension section is selected exactly when generating
      with `req_ext` set. */
  lemma ReqExtIffGenerating(d: Resource)
    ensures Opt("-extensions", ["req_ext"]) in Parsed(d) <==> d.request.None? && d.reqExt
  {
  }

  /** Which profile `server_only` and `client_only` select: both give
      "ssl_both", otherwise `client_only` wins over `server_only`. */
  lemma ProfileSelection(serverOnly: bool, clientOnly: bool)
    ensures ProfileName(serverOnly, clientOnly).None? <==> !serverOnly && !clientOnly
    ensures ProfileName(serverOnly, clientOnly) == Some("ssl_both") <==> serverOnly && clientOnly
    ensures ProfileName(serverOnly, clientOnly) == Some("clientAuth") <==> clientOnly && !serverOnly
    ensures ProfileName(serverOnly, clientOnly) == Some("serverAuth") <==> serverOnly && !clientOnly
  {
  }

  /** In both modes the output option comes last but for the profile's
      extension section, which follows it. */
  lemma OutputThenProfile(d: Resource)
    ensures var opts := Parsed(d);
            match ProfileName(d.serverOnly, d.clientOnly)
            case None => opts[|opts| - 1] == Opt("-out", [d.path])
            case Some(p) => |opts| >= 2 && opts[|opts| - 2] == Opt("-out", [d.path])
                            && opts[|opts| - 1] == Opt("-extensions", [p])
  {
  }

  /** With `req_ext` and a profile both selected, two extension sections are
      named and the profile's is the later one. */
  lemma ProfileFollowsReqExt(d: Resource)
    requires d.request.None? && d.reqExt && (d.serverOnly || d.clientOnly)
    ensures exists i, j | 0 <= i < j < |Parsed(d)| ::
              Parsed(d)[i] == Opt("-extensions", ["req_ext"])
              && Parsed(d)[j] == Opt("-extensions", [ProfileName(d.serverOnly, d.clientOnly).value])
              && j == |Parsed(d)| - 1
  {
    var opts := Parsed(d);
    var g := ModeOptions(d, KeyProtection(d.password));
    var p := ProfileName(d.serverOnly, d.clientOnly).value;
    assert opts == g + [Opt("-out", [d.path])] + [Opt("-extensions", [p])];
    assert g[|g| - 1] == Opt("-extensions", ["req_ext"]);
    assert opts[|g| - 1] == g[|g| - 1];
    assert opts[|opts| - 1] == Opt("-extensions", [p]);
  }

  /** A `days` value that looks like a flag (the type accepts "-x509") is
      still only the validity period: no self-signing is requested. */
  lemma FlagLikeDaysIsAValue(d: Resource)
    requires d.request.None? && !d.ca && d.days == Some("-x509")
    ensures DaysAccepted(d.days.value)
    ensures "-x509" in Create(d)
    ensures !HasFlag(Parsed(d), "-x509")
    ensures Opt("-days", ["-x509"]) in Parsed(d)
  {
    LaxDaysPattern();
    SelfSignIffCa(d);
    DaysIffGenerating(d);
    var opts := Parsed(d);
    var i :| 0 <= i < |opts| && opts[i] == Opt("-days", ["-x509"]);
    RenderContains(opts, i);
    assert "-x509" in opts[i].values;
  }

  /** A self-signed certificate authority with a validity period, no
      password, the `req_ext` section and the server profile (the expected
      arguments are grouped for readability). */
  lemma GenerateScenario(d: Resource)
    requires d.path == "/etc/pki/c.crt" && d.privateKey == "/etc/pki/c.key"
    requires d.template == "/etc/pki/t.cnf" && d.request.None? && d.ca
    requires d.days == Some("730") && d.password.None? && d.reqExt
    requires d.serverOnly && !d.clientOnly
    ensures Create(d) == ["req", "-new", "-key", "/etc/pki/c.key", "-x509"]
                         + ["-config", "/etc/pki/t.cnf", "-days", "730", "-nodes"]
                         + ["-extensions", "req_ext", "-out", "/etc/pki/c.crt", "-extensions", "serverAuth"]
  {
    GenerateScenarioOptions(d);
    RenderGenerateScenario();
  }

  /** The generate scenario's arguments are the rendering of its options,
      in three parts. */
  lemma GenerateScenarioOptions(d: Resource)
    requires d.path == "/etc/pki/c.crt" && d.privateKey == "/etc/pki/c.key"
    requires d.template == "/etc/pki/t.cnf" && d.request.None? && d.ca
    requires d.days == Some("730") && d.password.None? && d.reqExt
    requires d.serverOnly && !d.clientOnly
    ensures Create(d)
            == Render([Opt("req", []), Opt("-new", []), Opt("-key", ["/etc/pki/c.key"]), Opt("-x509", [])])
               + Render([Opt("-config", ["/etc/pki/t.cnf"]), Opt("-days", ["730"]), Opt("-nodes", [])])
               + Render([Opt("-extensions", ["req_ext"]), Opt("-out", ["/etc/pki/c.crt"]),
                         Opt("-extensions", ["serverAuth"])])
  {
    var a := [Opt("req", []), Opt("-new", []), Opt("-key", ["/etc/pki/c.key"]), Opt("-x509", [])];
    var b := [Opt("-config", ["/etc/pki/t.cnf"]), Opt("-days", ["730"]), Opt("-nodes", [])];
    var c := [Opt("-extensions", ["req_ext"]), Opt("-out", ["/etc/pki/c.crt"]),
              Opt("-extensions", ["serverAuth"])];
    assert Parsed(d) == a + b + c;
    assert Render(Parsed(d)) == Create(d);
    RenderAppend(a + b, c);
    RenderAppend(a, b);
  }

  /** The generate scenario's options written out, in three parts. */
  lemma RenderGenerateScenario()
    ensures Render([Opt("req", []), Opt("-new", []), Opt("-key", ["/etc/pki/c.key"]), Opt("-x509", [])])
            == ["req", "-new", "-key", "/etc/pki/c.key", "-x509"]
    ensures Render([Opt("-config", ["/etc/pki/t.cnf"]), Opt("-days", ["730"]), Opt("-nodes", [])])
            == ["-config", "/etc/pki/t.cnf", "-days", "730", "-nodes"]
    ensures Render([Opt("-extensions", ["req_ext"]), Opt("-out", ["/etc/pki/c.crt"]),
                    Opt("-extensions", ["serverAuth"])])
            == ["-extensions", "req_ext", "-out", "/etc/pki/c.crt", "-extensions", "serverAuth"]
  {
  }

  /** Signing a request with the authority's configuration and the client
      profile (the expected arguments are grouped for readability). */
  lemma SignScenario(d: Resource)
    requires d.path == "/etc/pki/c.crt" && d.request == Some("/tmp/r.csr")
    requires d.authorityCnf == Some("/etc/pki/ca.cnf")
    requires d.clientOnly && !d.serverOnly
    ensures Create(d) == ["ca", "-create_serial", "-batch", "-in", "/tmp/r.csr"]
                         + ["-config", "/etc/pki/ca.cnf", "-out", "/etc/pki/c.crt", "-extensions", "clientAuth"]
  {
    SignScenarioOptions(d);
    RenderSignScenario();
  }

  /** The sign scenario's arguments are the rendering of its options, in
      two parts. */
  lemma SignScenarioOptions(d: Resource)
    requires d.path == "/etc/pki/c.crt" && d.request == Some("/tmp/r.csr")
    requires d.authorityCnf == Some("/etc/pki/ca.cnf")
    requires d.clientOnly && !d.serverOnly
    ensures Create(d)
            == Render([Opt("ca", []), Opt("-create_serial", []), Opt("-batch", []), Opt("-in", ["/tmp/r.csr"])])
               + Render([Opt("-config", ["/etc/pki/ca.cnf"]), Opt("-out", ["/etc/pki/c.crt"]),
                         Opt("-extensions", ["clientAuth"])])
  {
    var a := [Opt("ca", []), Opt("-create_serial", []), Opt("-batch", []), Opt("-in", ["/tmp/r.csr"])];
    var b := [Opt("-config", ["/etc/pki/ca.cnf"]), Opt("-out", ["/etc/pki/c.crt"]),
              Opt("-extensions", ["clientAuth"])];
    assert Parsed(d) == a + b;
    assert Render(Parsed(d)) == Create(d);
    RenderAppend(a, b);
  }

  /** The sign scenario's options written out, in two parts. */
  lemma RenderSignScenario()
    ensures Render([Opt("ca", []), Opt("-create_serial", []), Opt("-batch", []), Opt("-in", ["/tmp/r.csr"])])
            == ["ca", "-create_serial", "-batch", "-in", "/tmp/r.csr"]
    ensures Render([Opt("-config", ["/etc/pki/ca.cnf"]), Opt("-out", ["/etc/pki/c.crt"]),
                    Opt("-extensions", ["clientAuth"])])
            == ["-config", "/etc/pki/ca.cnf", "-out", "/etc/pki/c.crt", "-extensions", "clientAuth"]
  {
  }

  /** As written, the password travels as one argument, so the grouped
      list has no `-passin` flag and the password is never its value. */
  lemma PasswordIsOneArgument(d: Resource)
    requires d.request.None? && d.password.Some?
    ensures "-passin pass:" + d.password.value in Create(d)
    ensures !HasFlag(Parsed(d), "-passin")
  {
    var opts := Parsed(d);
    var k := 4 + (if d.ca then 1 else 0) + (if d.days.Some? then 1 else 0);
    assert opts[k] == KeyProtection(d.password);
    RenderContains(opts, k);
    assert Render(opts) == Create(d);
    assert "-passin pass:" + d.password.value in Render(opts);
    FlagsAreFixed(d);
    PasswordArgumentIsNoFixedFlag(d.password.value);
    assert !FixedFlag("-passin");
    forall o | o in opts
      ensures o.name != "-passin"
    {
    }
  }

  /** The password as the `-passin` flag and its value: the as-written
      argument split at its space into flag and value. */
  function IntendedKeyProtection(password: Option<string>): (o: Opt)
    ensures WellFormed(o)
    ensures o.name == "-passin" <==> password.Some?
    ensures password.Some? ==> o.values == ["pass:" + password.value]
    ensures password.Some? ==> o.name + " " + o.values[0] == KeyProtection(password).name
    ensures password.None? ==> o == Opt("-nodes", []) == KeyProtection(password)
  {
    match password
    case Some(pw) => Opt("-passin", ["pass:" + pw])
    case None => Opt("-nodes", [])
  }

  /** `create` with the password passed as `-passin` and its value. */
  function CreateIntended(d: Resource): (argv: seq<string>)
    ensures Read(argv) == Options(d, IntendedKeyProtection(d.password))
    ensures d.password.None? || d.request.Some? ==> argv == Create(d)
    ensures d.request.None? && d.password.Some?
            ==> Opt("-passin", ["pass:" + d.password.value]) in Read(argv)
  {
    var opts := Options(d, IntendedKeyProtection(d.password));
    OptionsWellFormed(d, IntendedKeyProtection(d.password));
    ReadRender(opts);
    Render(opts)
  }
}

=== FILE: equivalence.dfy ===
/**
 * The provider's test of whether the certificate on disk still matches the
 * template (`old_cert_is_equal`): the certificate's subject is parsed into
 * attribute data, its last `subjectAltName` extension is picked out, and a
 * precedence rule over the template's `req_ext` and
 * `req_distinguished_name` sections decides.
 */
module Equivalence {
  import opened Results
  import opened Text

  /** One certificate extension as OpenSSL reports it. */
  datatype Extension = Extension(oid: string, value: string)

  /** What the provider reads from a certificate: the subject in OpenSSL's
      one-line `/key=value/...` form and the extensions in order. */
  datatype Certificate = Certificate(subject: string, extensions: seq<Extension>)

  /** A parsed template: section name to the section's key/value pairs. */
  type Section = map<string, string>
  type Template = map<string, Section>

  /** The subject attribute data: Ruby `nil` keys and values are possible. */
  type SubjectData = map<Option<string>, Option<string>>

  const SubjectAltName: string := "subjectAltName"
  const ReqExt: string := "req_ext"
  const ReqDistinguishedName: string := "req_distinguished_name"
  const CommonNameKey: string := "commonName"

  /* ---------------------------------------------------------------------
   * The subjectAltName value
   * ------------------------------------------------------------------- */

  /** The extension loop: `current` is overwritten by every
      `subjectAltName` extension met, so the last one wins. */
  function ScanAltName(exts: seq<Extension>, current: string): (r: string)
    ensures (forall i | 0 <= i < |exts| :: exts[i].oid != SubjectAltName) ==> r == current
    ensures forall i | 0 <= i < |exts| && exts[i].oid == SubjectAltName
                       && (forall j | i < j < |exts| :: exts[j].oid != SubjectAltName) ::
              r == exts[i].value
    decreases |exts|
  {
    if |exts| == 0 then current
    else
      var r := ScanAltName(exts[1..], if exts[0].oid == SubjectAltName then exts[0].value else current);
      assert forall i | 1 <= i < |exts| :: exts[i] == exts[1..][i - 1];
      r
  }

  /** The certificate's `subjectAltName` value: the last such extension's,
      or "" when there is none. */
  function AltName(cert: Certificate): string {
    ScanAltName(cert.extensions, "")
  }

  /* ---------------------------------------------------------------------
   * The subject
   * ------------------------------------------------------------------- */

  /** `k` of `k, v = part.split('=')`: the first field, `nil` if none. */
  function FieldKey(part: string): Option<string> {
    var f := RubySplit(part, '=');
    if |f| > 0 then Some(f[0]) else None
  }

  /** `v` of `k, v = part.split('=')`: the second field, `nil` if none. */
  function FieldValue(part: string): Option<string> {
    var f := RubySplit(part, '=');
    if |f| > 1 then Some(f[1]) else None
  }

  /** One subject part as the loop reads it: `k, v = part.split('=')`. */
  datatype Entry = Entry(key: Option<string>, value: Option<string>)

  function ParsePart(part: string): Entry {
    Entry(FieldKey(part), FieldValue(part))
  }

  /** Every part read in turn. */
  function Entries(parts: seq<string>): (es: seq<Entry>)
    ensures |es| == |parts|
    ensures forall i | 0 <= i < |parts| :: es[i] == ParsePart(parts[i])
    decreases |parts|
  {
    if |parts| == 0 then [] else [ParsePart(parts[0])] + Entries(parts[1..])
  }

  /** The subject loop: each entry stores its value under its key,
      overwriting what an earlier entry stored. */
  function Collect(entries: seq<Entry>, acc: SubjectData): SubjectData
    decreases |entries|
  {
    if |entries| == 0 then acc
    else Collect(entries[1..], acc[entries[0].key := entries[0].value])
  }

  /** `cdata`: the subject split on "/" and each part collected in order. */
  function ParseSubject(subject: string): SubjectData {
    Collect(Entries(RubySplit(subject, '/')), map[])
  }

  /** `cdata[key]`: `nil` for a missing key. */
  function Lookup(data: SubjectData, key: string): Option<string> {
    if Some(key) in data then data[Some(key)] else None
  }

  /** `cdata['CN']`. */
  function CommonName(subject: string): Option<string> {
    Lookup(ParseSubject(subject), "CN")
  }

  /** Collecting entries none of which has `key` leaves `key` as it was. */
  lemma {:induction false} CollectKeepsAbsent(entries: seq<Entry>, acc: SubjectData, key: string)
    requires forall i | 0 <= i < |entries| :: entries[i].key != Some(key)
    ensures Lookup(Collect(entries, acc), key) == Lookup(acc, key)
    decreases |entries|
  {
    if |entries| > 0 {
      var acc' := acc[entries[0].key := entries[0].value];
      assert entries[0].key != Some(key);
      assert forall i | 0 <= i < |entries| - 1 :: entries[1..][i] == entries[i + 1];
      CollectKeepsAbsent(entries[1..], acc', key);
    }
  }

  /** The entry at `i` is the last one whose key is `key`. */
  predicate LastEntryWithKey(entries: seq<Entry>, i: nat, key: string) {
    && i < |entries|
    && entries[i].key == Some(key)
    && forall j | i < j < |entries| :: entries[j].key != Some(key)
  }

  /** Collecting keeps the value of the LAST entry with a given key. */
  lemma {:induction false} CollectLastWins(entries: seq<Entry>, acc: SubjectData, key: string, i: nat)
    requires LastEntryWithKey(entries, i, key)
    ensures Lookup(Collect(entries, acc), key) == entries[i].value
    decreases |entries|
  {
    var acc' := acc[entries[0].key := entries[0].value];
    var rest := entries[1..];
    if i == 0 {
      assert forall j | 0 <= j < |rest| :: rest[j] == entries[j + 1];
      CollectKeepsAbsent(rest, acc', key);
    } else {
      assert forall j | 0 <= j < |rest| :: rest[j] == entries[j + 1];
      assert LastEntryWithKey(rest, i - 1, key);
      CollectLastWins(rest, acc', key, i - 1);
    }
  }

  /** A part `k=v` with no further "=": the key is `k` and the value `v`,
      an empty value reading as `nil` (and "=" alone as no key at all). */
  lemma FieldOfPair(k: string, v: string)
    requires '=' !in k && '=' !in v
    ensures FieldKey(k + "=" + v) == (if k == "" && v == "" then None else Some(k))
    ensures FieldValue(k + "=" + v) == (if v == "" then None else Some(v))
  {
    SplitAllAtSeparator(k, '=', v);
    SplitAllNoSeparator(v, '=');
    assert SplitAll(k + "=" + v, '=') == [k, v];
    assert [k, v][..1] == [k];
  }

  /** A part `k=v=w` with a non-empty `v`: the value is the text between the
      first and the second "=", whatever follows. */
  lemma FieldOfTriple(k: string, v: string, w: string)
    requires '=' !in k && '=' !in v && v != ""
    ensures FieldKey(k + "=" + v + "=" + w) == Some(k)
    ensures FieldValue(k + "=" + v + "=" + w) == Some(v)
  {
    SplitAllAtSeparator(v, '=', w);
    SplitAllAtSeparator(k, '=', v + "=" + w);
    assert k + "=" + v + "=" + w == k + "=" + (v + "=" + w);
    var fields := SplitAll(k + "=" + v + "=" + w, '=');
    assert fields[0] == k && fields[1] == v;
  }

  /** The part at `i` is the last one whose key is `key`. */
  predicate LastWithKey(parts: seq<string>, i: nat, key: string) {
    && i < |parts|
    && FieldKey(parts[i]) == Some(key)
    && forall j | i < j < |parts| :: FieldKey(parts[j]) != Some(key)
  }

  /** The common name read from a subject is the value of the last part
      whose key is "CN", or `nil` when no part has that key. */
  lemma CommonNameIsLastCN(subject: string)
    ensures var parts := RubySplit(subject, '/');
            (forall i | 0 <= i < |parts| :: FieldKey(parts[i]) != Some("CN")) ==> CommonName(subject) == None
    ensures var parts := RubySplit(subject, '/');
            forall i: nat | LastWithKey(parts, i, "CN") :: CommonName(subject) == FieldValue(parts[i])
  {
    var parts := RubySplit(subject, '/');
    var es := Entries(parts);
    forall i: nat | LastWithKey(parts, i, "CN")
      ensures CommonName(subject) == FieldValue(parts[i])
    {
      assert es[i].key == Some("CN");
      forall j | i < j < |es|
        ensures es[j].key != Some("CN")
      {
        assert es[j] == ParsePart(parts[j]);
      }
      CollectLastWins(es, map[], "CN", i);
    }
    if forall i | 0 <= i < |parts| :: FieldKey(parts[i]) != Some("CN") {
      forall i | 0 <= i < |es|
        ensures es[i].key != Some("CN")
      {
        assert es[i] == ParsePart(parts[i]);
      }
      CollectKeepsAbsent(es, map[], "CN");
    }
  }

  /* ---------------------------------------------------------------------
   * subjectAltName normalisation
   * ------------------------------------------------------------------- */

  /** The template side: spaces deleted, then line-anchored quotes stripped. */
  function NormalizeTemplateSan(value: string): string {
    StripAnchoredQuotes(Delete(value, ' '))
  }

  /** The certificate side: the same, then "IPAddress" rewritten to "IP". */
  function NormalizeCertSan(value: string): string {
    ReplaceAll(StripAnchoredQuotes(Delete(value, ' ')), "IPAddress", "IP")
  }

  /** The template's subjectAltName agrees with the certificate's. */
  predicate SanMatches(templateValue: string, certValue: string) {
    NormalizeTemplateSan(templateValue) == NormalizeCertSan(certValue)
  }

  /** For single-line values the comparison is: spaces deleted on both
      sides, one leading and one trailing quote dropped on both sides, and
      the certificate side's "IPAddress" rewritten. */
  lemma SanMatchesSingleLine(templateValue: string, certValue: string)
    requires '\n' !in templateValue && '\n' !in certValue
    ensures SanMatches(templateValue, certValue)
            <==> DropEdgeQuotes(Delete(templateValue, ' '))
                 == ReplaceAll(DropEdgeQuotes(Delete(certValue, ' ')), "IPAddress", "IP")
  {
    DeleteNoNew(templateValue, ' ', '\n');
    DeleteNoNew(certValue, ' ', '\n');
    StripAnchoredQuotesSingleLine(Delete(templateValue, ' '));
    StripAnchoredQuotesSingleLine(Delete(certValue, ' '));
  }

  /** Inserting a space anywhere in either value never changes the verdict. */
  lemma SpacesNeverMatter(templateValue: string, certValue: string, i: nat, j: nat)
    requires i <= |templateValue| && j <= |certValue|
    ensures SanMatches(InsertAt(templateValue, i, ' '), certValue) == SanMatches(templateValue, certValue)
    ensures SanMatches(templateValue, InsertAt(certValue, j, ' ')) == SanMatches(templateValue, certValue)
  {
    DeleteInsert(templateValue, i, ' ');
    DeleteInsert(certValue, j, ' ');
  }

  /* ---------------------------------------------------------------------
   * The decision
   * ------------------------------------------------------------------- */

  /** The template's `req_distinguished_name.commonName` is set and differs
      from the certificate's CN (a missing CN never equals a set value). */
  predicate CommonNameMismatch(tmpl: Template, subject: string) {
    && ReqDistinguishedName in tmpl
    && CommonNameKey in tmpl[ReqDistinguishedName]
    && Some(tmpl[ReqDistinguishedName][CommonNameKey]) != CommonName(subject)
  }

  /** `old_cert_is_equal`: a `req_ext` section, if present, is authoritative
      and is judged by its `subjectAltName` alone (no such key: equal);
      otherwise the `req_distinguished_name` section's `commonName`, if
      any, must equal the CN; with neither, the certificate is equal. */
  function OldCertIsEqual(cert: Certificate, tmpl: Template): (equal: bool)
    ensures !equal <==>
              || (ReqExt in tmpl && SubjectAltName in tmpl[ReqExt]
                  && !SanMatches(tmpl[ReqExt][SubjectAltName], AltName(cert)))
              || (ReqExt !in tmpl && CommonNameMismatch(tmpl, cert.subject))
  {
    var altName := AltName(cert);
    var cdata := ParseSubject(cert.subject);
    if ReqExt in tmpl then
      var section := tmpl[ReqExt];
      if SubjectAltName in section then SanMatches(section[SubjectAltName], altName) else true
    else if ReqDistinguishedName in tmpl then
      var section := tmpl[ReqDistinguishedName];
      if CommonNameKey in section then Some(section[CommonNameKey]) == Lookup(cdata, "CN") else true
    else true
  }

  /** The template as the code holds it: the INI file object is created but
      never read, so it has no sections at all. */
  const UnreadTemplate: Template := map[]

  /** `old_cert_is_equal` as written: every section lookup is made on the
      unread file object, so the certificate always compares equal. */
  function OldCertIsEqualAsWritten(cert: Certificate): (equal: bool)
    ensures equal
  {
    OldCertIsEqual(cert, UnreadTemplate)
  }

  /** A certificate without a subjectAltName extension differs from a
      template asking for "DNS:a", yet the code as written calls it equal. */
  lemma UnreadTemplateHidesMismatch()
    ensures !OldCertIsEqual(Certificate("/CN=a", []), map[ReqExt := map[SubjectAltName := "DNS:a"]])
    ensures OldCertIsEqualAsWritten(Certificate("/CN=a", []))
  {
    var cert := Certificate("/CN=a", []);
    var tmpl := map[ReqExt := map[SubjectAltName := "DNS:a"]];
    var v := "DNS:a";
    assert ' ' !in v && '"' !in v;
    DeleteAbsent(v, ' ');
    StripAnchoredQuotesNoQuote(v);
    MissingSanComparesAsEmpty(cert, tmpl);
  }

  /** With a `req_ext` section the verdict is the subjectAltName comparison
      (true when the section has no such key): neither the subject nor the
      `req_distinguished_name` section can affect it. */
  lemma ReqExtIsAuthoritative(cert: Certificate, tmpl: Template, otherSubject: string, dn: Section)
    requires ReqExt in tmpl
    ensures OldCertIsEqual(cert, tmpl)
            == (SubjectAltName in tmpl[ReqExt] ==> SanMatches(tmpl[ReqExt][SubjectAltName], AltName(cert)))
    ensures OldCertIsEqual(cert, tmpl) == OldCertIsEqual(cert.(subject := otherSubject), tmpl)
    ensures OldCertIsEqual(cert, tmpl) == OldCertIsEqual(cert, tmpl[ReqDistinguishedName := dn])
  {
    assert AltName(cert) == AltName(cert.(subject := otherSubject));
  }

  /** A `req_ext` section without `subjectAltName` makes the certificate
      equal, whatever its subject and extensions. */
  lemma ReqExtWithoutSanIsEqual(cert: Certificate, tmpl: Template)
    requires ReqExt in tmpl && SubjectAltName !in tmpl[ReqExt]
    ensures OldCertIsEqual(cert, tmpl)
  {
  }

  /** Without a `req_ext` section the certificate is unequal exactly when the
      template's commonName is set and differs from the CN; with neither
      section it is equal. */
  lemma CommonNameDecides(cert: Certificate, tmpl: Template)
    requires ReqExt !in tmpl
    ensures !OldCertIsEqual(cert, tmpl) <==> CommonNameMismatch(tmpl, cert.subject)
    ensures ReqDistinguishedName !in tmpl ==> OldCertIsEqual(cert, tmpl)
  {
  }

  /** A certificate without a `subjectAltName` extension compares as "":
      it is equal only to a template value that normalises to nothing. */
  lemma MissingSanComparesAsEmpty(cert: Certificate, tmpl: Template)
    requires forall i | 0 <= i < |cert.extensions| :: cert.extensions[i].oid != SubjectAltName
    requires ReqExt in tmpl && SubjectAltName in tmpl[ReqExt]
    ensures AltName(cert) == ""
    ensures OldCertIsEqual(cert, tmpl) <==> NormalizeTemplateSan(tmpl[ReqExt][SubjectAltName]) == ""
  {
    assert Delete("", ' ') == "";
    assert StripAnchoredQuotes("") == "";
  }

  /** The last `subjectAltName` extension is the one compared. */
  lemma LastSanIsCompared(cert: Certificate, i: nat)
    requires i < |cert.extensions| && cert.extensions[i].oid == SubjectAltName
    requires forall j | i < j < |cert.extensions| :: cert.extensions[j].oid != SubjectAltName
    ensures AltName(cert) == cert.extensions[i].value
  {
  }

  /* ---------------------------------------------------------------------
   * Worked examples
   * ------------------------------------------------------------------- */

  /** Deleting the spaces after a space-free word. */
  lemma DeleteAfterWord(a: string, b: string)
    requires ' ' !in a
    ensures Delete(a + " " + b, ' ') == a + Delete(b, ' ')
  {
    DeleteAppend(a + " ", b, ' ');
    DeleteAppend(a, " ", ' ');
    DeleteAbsent(a, ' ');
    assert Delete(" ", ' ') == "";
    assert Delete(a + " ", ' ') == a + "" == a;
  }

  /** A value made of space-free, quote-free pieces normalises (template
      side) to the pieces joined. */
  lemma NormalizeTemplatePieces(a: string, b: string, c: string)
    requires ' ' !in a && ' ' !in b && ' ' !in c
    requires '"' !in a && '"' !in b && '"' !in c
    ensures NormalizeTemplateSan(a + " " + b + " " + c) == a + b + c
  {
    assert a + " " + b + " " + c == a + " " + (b + " " + c);
    DeleteAfterWord(b, c);
    DeleteAbsent(c, ' ');
    DeleteAfterWord(a, b + " " + c);
    assert a + (b + c) == a + b + c;
    StripAnchoredQuotesNoQuote(a + b + c);
  }

  /** The certificate side of the same value with "IPAddress" at the front
      of the last piece, when "I" occurs nowhere else. */
  lemma NormalizeCertPieces(a: string, c: string)
    requires ' ' !in a && ' ' !in c && '"' !in a && '"' !in c
    requires 'I' !in a && 'I' !in c
    ensures NormalizeCertSan(a + " " + "IPAddress" + c) == a + "IP" + c
  {
    var w := "IPAddress";
    var wc := w + c;
    assert ' ' !in w && '"' !in w;
    assert ' ' !in wc && '"' !in wc;
    assert a + " " + w + c == a + " " + wc;
    DeleteAfterWord(a, wc);
    DeleteAbsent(wc, ' ');
    StripAnchoredQuotesNoQuote(a + wc);
    assert forall i | 0 <= i < |a| :: (a + wc)[i] == a[i];
    NoOccurrenceWithoutFirstChar(a + wc, w, |a|);
    ReplaceAllCopies(a, wc, w, "IP");
    ReplaceAllFront(w, c, "IP");
    NoOccurrenceWithoutFirstChar(c, w, |c|);
    ReplaceAllNoOccurrence(c, w, "IP");
    assert a + ("IP" + c) == a + "IP" + c;
  }

  /** The template side of the short form: spaces gone, nothing else changed. */
  lemma ShortFormTemplateSide(dns: string, ip: string)
    requires ' ' !in dns && '"' !in dns && ' ' !in ip && '"' !in ip
    ensures NormalizeTemplateSan("DNS:" + dns + ", IP: " + ip) == "DNS:" + dns + "," + "IP:" + ip
  {
    var a := "DNS:" + dns + ",";
    assert ' ' !in "DNS:" && '"' !in "DNS:";
    assert "DNS:" + dns + ", IP: " + ip == a + " " + "IP:" + " " + ip;
    NormalizeTemplatePieces(a, "IP:", ip);
  }

  /** The certificate side of the long form: spaces gone and "IPAddress"
      shortened to "IP". */
  lemma LongFormCertSide(dns: string, ip: string)
    requires ' ' !in dns && '"' !in dns && 'I' !in dns
    requires ' ' !in ip && '"' !in ip && 'I' !in ip
    ensures NormalizeCertSan("DNS:" + dns + ", IPAddress:" + ip) == "DNS:" + dns + "," + "IP:" + ip
  {
    var a := "DNS:" + dns + ",";
    assert ' ' !in "DNS:" && '"' !in "DNS:" && 'I' !in "DNS:";
    assert "DNS:" + dns + ", IPAddress:" + ip == a + " " + "IPAddress" + (":" + ip);
    NormalizeCertPieces(a, ":" + ip);
    assert a + "IP" + (":" + ip) == a + "IP:" + ip;
  }

  /** OpenSSL prints "IPAddress:" where templates write "IP:"; with the
      spaces gone the two agree, for any DNS name and address free of
      spaces, quotes and "I". */
  lemma ShortFormTemplateMatches(dns: string, ip: string)
    requires ' ' !in dns && '"' !in dns && 'I' !in dns
    requires ' ' !in ip && '"' !in ip && 'I' !in ip
    ensures SanMatches("DNS:" + dns + ", IP: " + ip, "DNS:" + dns + ", IPAddress:" + ip)
  {
    ShortFormTemplateSide(dns, ip);
    LongFormCertSide(dns, ip);
  }

  /** "DNS:example.com, IP: 10.0.0.1" in the template matches
      "DNS:example.com, IPAddress:10.0.0.1" in the certificate. */
  lemma ExampleDnsAndIpMatch()
    ensures SanMatches("DNS:" + "example.com" + ", IP: " + "10.0.0.1",
                       "DNS:" + "example.com" + ", IPAddress:" + "10.0.0.1")
  {
    var dns, ip := "example.com", "10.0.0.1";
    assert ' ' !in dns && '"' !in dns && 'I' !in dns;
    assert ' ' !in ip && '"' !in ip && 'I' !in ip;
    ShortFormTemplateMatches(dns, ip);
  }

  /** The rewrite applies to the certificate side only, so a template that
      itself writes the long form never matches the same certificate text. */
  lemma LongFormTemplateNeverMatches(ip: string)
    requires ' ' !in ip && '"' !in ip && 'I' !in ip
    ensures !SanMatches("IPAddress:" + ip, "IPAddress:" + ip)
  {
    var v1, v2 := "IPAddress", ":" + ip;
    assert "IPAddress:" + ip == v1 + v2;
    assert ' ' !in v1 && '"' !in v1;
    DeleteAbsent(v1 + v2, ' ');
    StripAnchoredQuotesNoQuote(v1 + v2);
    ReplaceAllFront(v1, v2, "IP");
    NoOccurrenceWithoutFirstChar(v2, v1, |v2|);
    ReplaceAllNoOccurrence(v2, v1, "IP");
    assert |NormalizeCertSan(v1 + v2)| < |NormalizeTemplateSan(v1 + v2)|;
  }

  /** The subject parse keeps only the text up to the second "=", so a
      common name that itself contains "=" is read truncated and a template
      asking for it is never satisfied. */
  lemma CommonNameWithEquals(cert: Certificate, tmpl: Template)
    requires cert.subject == "/CN=a=b"
    requires ReqExt !in tmpl && ReqDistinguishedName in tmpl
    requires CommonNameKey in tmpl[ReqDistinguishedName] && tmpl[ReqDistinguishedName][CommonNameKey] == "a=b"
    ensures CommonName(cert.subject) == Some("a")
    ensures !OldCertIsEqual(cert, tmpl)
  {
    var parts := ["", "CN=a=b"];
    SubjectWithEqualsParts();
    PartWithEquals();
    assert FieldKey(parts[0]) == None;
    CommonNameIsLastCN(cert.subject);
    assert LastWithKey(parts, 1, "CN");
  }

  /** "/CN=a=b" splits into an empty part and "CN=a=b". */
  lemma SubjectWithEqualsParts()
    ensures RubySplit("/CN=a=b", '/') == ["", "CN=a=b"]
    ensures RubySplit("", '=') == []
  {
    var parts := ["", "CN=a=b"];
    assert Join(parts, '/') == "/CN=a=b";
    SplitAllJoin(parts, '/');
    assert RubySplit("", '=') == [];
  }

  /** "CN=a=b" reads as key "CN" and value "a". */
  lemma PartWithEquals()
    ensures FieldKey("CN=a=b") == Some("CN")
    ensures FieldValue("CN=a=b") == Some("a")
  {
    FieldOfTriple("CN", "a", "b");
    assert "CN=a=b" == "CN" + "=" + "a" + "=" + "b";
  }
}

=== FILE: parameters.dfy ===
/**
 * The `x509_cert` resource type: its parameters as the user supplies them,
 * the validation each parameter applies, and the defaults the type fills
 * in, producing the validated parameter record the provider works from.
 */
module Parameters {
  import opened Results
  import opened Paths

  /** The parameters as supplied by the user; `None` stands for an
      unsupplied parameter. `ca` has neither default nor validation and is
      read only for its truth value, so it is a plain boolean. */
  datatype RawParams = RawParams(
    path: string,
    privateKey: Option<string>,
    days: Option<string>,
    force: Option<bool>,
    password: Option<string>,
    reqExt: Option<bool>,
    ca: bool,
    template: Option<string>,
    authorityCnf: Option<string>,
    request: Option<string>,
    serverOnly: Option<bool>,
    clientOnly: Option<bool>,
    authentication: Option<string>)

  /** The validated parameters of one certificate resource. `days` stays
      optional because the provider tests for its presence. */
  datatype Resource = Resource(
    path: string,
    privateKey: string,
    days: Option<string>,
    force: bool,
    password: Option<string>,
    reqExt: bool,
    ca: bool,
    template: string,
    authorityCnf: Option<string>,
    request: Option<string>,
    serverOnly: bool,
    clientOnly: bool,
    authentication: string)

  const DefaultDays: string := "3650"
  const DefaultAuthentication: string := "rsa"

  /** The default private key: the certificate's directory and stem with ".key". */
  function DefaultPrivateKey(path: string): string {
    Sibling(path, ".key")
  }

  /** The default template: the certificate's directory and stem with ".cnf". */
  function DefaultTemplate(path: string): string {
    Sibling(path, ".cnf")
  }

  /** The default key and template are derived from `path` alone, are
      absolute whenever `path` is, and differ only in their last three
      characters. */
  lemma DefaultPathsAgree(path: string)
    ensures IsAbsolute(path) ==> IsAbsolute(DefaultPrivateKey(path)) && IsAbsolute(DefaultTemplate(path))
    ensures |DefaultPrivateKey(path)| == |DefaultTemplate(path)| >= 4
    ensures DefaultPrivateKey(path)[..|DefaultPrivateKey(path)| - 3]
            == DefaultTemplate(path)[..|DefaultTemplate(path)| - 3]
    ensures DefaultPrivateKey(path)[|DefaultPrivateKey(path)| - 3..] == "key"
    ensures DefaultTemplate(path)[|DefaultTemplate(path)| - 3..] == "cnf"
  {
    var stem := Dirname(path) + "/" + Stem(path);
    assert DefaultPrivateKey(path) == stem + "." + "key";
    assert DefaultTemplate(path) == stem + "." + "cnf";
  }

  /** The path parameters' validation. `Pathname.new` first refuses a value
      holding a NUL character; then an absolute path is accepted as is and
      anything else raises "Path must be absolute". */
  function ValidatePath(param: string, value: string): (r: Result<string>)
    ensures r.Success? <==> IsAbsolute(value) && '\0' !in value
    ensures r.Success? ==> r.value == value
    ensures r.Failure? && '\0' in value ==> r.error == ContainsNul(param, value)
    ensures r.Failure? && '\0' !in value ==> r.error == NotAbsolute(param, value)
  {
    if '\0' in value then Failure(ContainsNul(param, value))
    else if IsAbsolute(value) then Success(value)
    else Failure(NotAbsolute(param, value))
  }

  /** An absolute certificate path holding a NUL character is refused by
      `Pathname.new`, so building the resource fails on it. */
  lemma NulPathRejected(raw: RawParams)
    requires raw.path == "/etc/a\0b.crt"
    ensures IsAbsolute(raw.path)
    ensures Build(raw) == Failure(ContainsNul("path", raw.path))
  {
    assert raw.path[6] == '\0';
  }

  /** `days` accepts anything the unanchored pattern `\d+` matches: any
      value containing a decimal digit. */
  predicate DaysAccepted(value: string) {
    exists i | 0 <= i < |value| :: '0' <= value[i] <= '9'
  }

  /** `authentication` accepts anything the unanchored pattern `[dr]sa`
      matches: any value containing "dsa" or "rsa". */
  predicate AuthenticationAccepted(value: string) {
    exists i | 0 <= i && i + 3 <= |value| ::
      (value[i] == 'd' || value[i] == 'r') && value[i + 1] == 's' && value[i + 2] == 'a'
  }

  /** Everything the user supplied passes its parameter's validation. */
  predicate Acceptable(raw: RawParams) {
    && ValidatePath("path", raw.path).Success?
    && (raw.privateKey.Some? ==> ValidatePath("private_key", raw.privateKey.value).Success?)
    && (raw.days.Some? ==> DaysAccepted(raw.days.value))
    && (raw.template.Some? ==> ValidatePath("template", raw.template.value).Success?)
    && (raw.request.Some? ==> ValidatePath("request", raw.request.value).Success?)
    && (raw.authentication.Some? ==> AuthenticationAccepted(raw.authentication.value))
  }

  /** The error names a supplied parameter whose value its validation rejects. */
  predicate Rejects(raw: RawParams, e: Error) {
    || ValidatePath("path", raw.path) == Failure(e)
    || (raw.privateKey.Some? && ValidatePath("private_key", raw.privateKey.value) == Failure(e))
    || (raw.days.Some? && e == InvalidValue("days", raw.days.value) && !DaysAccepted(raw.days.value))
    || (raw.template.Some? && ValidatePath("template", raw.template.value) == Failure(e))
    || (raw.request.Some? && ValidatePath("request", raw.request.value) == Failure(e))
    || (raw.authentication.Some? && e == InvalidValue("authentication", raw.authentication.value)
        && !AuthenticationAccepted(raw.authentication.value))
  }

  /** What every validated resource satisfies: its four path parameters are
      absolute and its `days` and `authentication` passed their patterns. */
  predicate Valid(r: Resource) {
    && IsAbsolute(r.path)
    && IsAbsolute(r.privateKey)
    && IsAbsolute(r.template)
    && (r.request.Some? ==> IsAbsolute(r.request.value))
    && r.days.Some? && DaysAccepted(r.days.value)
    && AuthenticationAccepted(r.authentication)
  }

  /** The position of the parameter an error names, in the order the type
      declares its validated parameters. */
  function DeclarationRank(e: Error): nat {
    match e
    case NotAbsolute(param, _) => PathRank(param)
    case ContainsNul(param, _) => PathRank(param)
    case InvalidValue(param, _) => if param == "days" then 2 else 5
    case UnknownAuthentication(_) => 6
  }

  /** The position of a path parameter among the validated parameters. */
  function PathRank(param: string): nat {
    if param == "path" then 0 else if param == "private_key" then 1
    else if param == "template" then 3 else 4
  }

  /** The error raised for rejected parameters: the supplied parameters are
      validated in the order the type declares them, so the rejection raised
      is the one for the earliest declared parameter that fails. */
  function FirstRejection(raw: RawParams): (e: Error)
    requires !Acceptable(raw)
    ensures Rejects(raw, e)
    ensures forall other | Rejects(raw, other) :: DeclarationRank(e) <= DeclarationRank(other)
  {
    var path := ValidatePath("path", raw.path);
    if path.Failure? then path.error
    else if raw.privateKey.Some? && ValidatePath("private_key", raw.privateKey.value).Failure? then
      ValidatePath("private_key", raw.privateKey.value).error
    else if raw.days.Some? && !DaysAccepted(raw.days.value) then
      InvalidValue("days", raw.days.value)
    else if raw.template.Some? && ValidatePath("template", raw.template.value).Failure? then
      ValidatePath("template", raw.template.value).error
    else if raw.request.Some? && ValidatePath("request", raw.request.value).Failure? then
      ValidatePath("request", raw.request.value).error
    else
      InvalidValue("authentication", raw.authentication.value)
  }

  /** The resource with every unsupplied parameter at its default. The
      defaults pass validation, so the result is valid. */
  function WithDefaults(raw: RawParams): (r: Resource)
    requires Acceptable(raw)
    ensures Valid(r)
  {
    DefaultPathsAgree(raw.path);
    assert DaysAccepted(DefaultDays) by { assert DefaultDays[0] == '3'; }
    assert AuthenticationAccepted(DefaultAuthentication) by {
      var v := DefaultAuthentication;
      assert v[0] == 'r' && v[1] == 's' && v[2] == 'a';
    }
    Resource(
      path := raw.path,
      privateKey := raw.privateKey.GetOr(DefaultPrivateKey(raw.path)),
      days := Some(raw.days.GetOr(DefaultDays)),
      force := raw.force.GetOr(false),
      password := raw.password,
      reqExt := raw.reqExt.GetOr(false),
      ca := raw.ca,
      template := raw.template.GetOr(DefaultTemplate(raw.path)),
      authorityCnf := raw.authorityCnf,
      request := raw.request,
      serverOnly := raw.serverOnly.GetOr(false),
      clientOnly := raw.clientOnly.GetOr(false),
      authentication := raw.authentication.GetOr(DefaultAuthentication))
  }

  /** Builds the resource: validation either raises for the first rejected
      parameter or every unsupplied parameter takes its default. */
  function Build(raw: RawParams): (r: Result<Resource>)
    ensures r.Success? <==> Acceptable(raw)
    ensures r.Failure? ==> Rejects(raw, r.error)
    ensures r.Success? ==> Valid(r.value)
    ensures r.Success? ==> r.value.path == raw.path
    ensures r.Success? && raw.privateKey.None? ==> r.value.privateKey == DefaultPrivateKey(raw.path)
    ensures r.Success? && raw.template.None? ==> r.value.template == DefaultTemplate(raw.path)
    ensures r.Success? && raw.days.None? ==> r.value.days == Some("3650")
    ensures r.Success? && raw.force.None? ==> !r.value.force
    ensures r.Success? && raw.reqExt.None? ==> !r.value.reqExt
    ensures r.Success? && raw.serverOnly.None? ==> !r.value.serverOnly
    ensures r.Success? && raw.clientOnly.None? ==> !r.value.clientOnly
    ensures r.Success? && raw.authentication.None? ==> r.value.authentication == "rsa"
    ensures r.Success? ==> r.value.authorityCnf == raw.authorityCnf && r.value.password == raw.password
    ensures r.Success? ==> r.value.ca == raw.ca && r.value.request == raw.request
    ensures r.Success? && raw.privateKey.Some? ==> r.value.privateKey == raw.privateKey.value
    ensures r.Success? && raw.template.Some? ==> r.value.template == raw.template.value
    ensures r.Success? && raw.days.Some? ==> r.value.days == raw.days
    ensures r.Success? && raw.force.Some? ==> r.value.force == raw.force.value
    ensures r.Success? && raw.reqExt.Some? ==> r.value.reqExt == raw.reqExt.value
    ensures r.Success? && raw.serverOnly.Some? ==> r.value.serverOnly == raw.serverOnly.value
    ensures r.Success? && raw.clientOnly.Some? ==> r.value.clientOnly == raw.clientOnly.value
    ensures r.Success? && raw.authentication.Some? ==> r.value.authentication == raw.authentication.value
  {
    if Acceptable(raw) then Success(WithDefaults(raw)) else Failure(FirstRejection(raw))
  }

  /** The `days` pattern is unanchored, so values far from a day count
      pass validation. */
  lemma LaxDaysPattern()
    ensures DaysAccepted("-x509")
    ensures DaysAccepted("about 10 years")
    ensures !DaysAccepted("forever")
  {
    assert "-x509"[2] == '5';
    assert "about 10 years"[6] == '1';
  }

  /** The `authentication` pattern is unanchored, so a value merely
      containing an algorithm name passes validation, "ecdsa" included. */
  lemma LaxAuthenticationPattern()
    ensures AuthenticationAccepted("xrsax")
    ensures AuthenticationAccepted("ecdsa")
    ensures !AuthenticationAccepted("ed25519")
  {
    var v := "xrsax";
    assert v[1] == 'r' && v[2] == 's' && v[3] == 'a';
    var w := "ecdsa";
    assert w[2] == 'd' && w[3] == 's' && w[4] == 'a';
  }
}

=== FILE: paths.dfy ===
/**
 * The Unix path functions the type uses to validate paths and to derive the
 * default key and template paths: `Pathname#absolute?`, `File.dirname`,
 * `File.basename` (with and without a suffix) and `File.extname`, on
 * `/`-separated paths.
 *
 * The scanning functions state only what holds at the position they return;
 * what holds around it is stated by a lemma next to each, for the proofs
 * that need it.
 */
module Paths {

  /** `Pathname#absolute?` on Unix: the path starts at the root. */
  predicate IsAbsolute(p: string) {
    |p| > 0 && p[0] == '/'
  }

  /* ---------------------------------------------------------------------
   * Scanning
   * ------------------------------------------------------------------- */

  /** `s` without its trailing run of `c`. */
  function TrimTrailing(s: string, c: char): (r: string)
    ensures |r| <= |s|
    ensures |r| > 0 ==> r[|r| - 1] != c
    decreases |s|
  {
    if |s| > 0 && s[|s| - 1] == c then TrimTrailing(s[..|s| - 1], c) else s
  }

  /** Trimming keeps a prefix and removes a run of `c`. */
  lemma {:induction false} TrimmedRun(s: string, c: char)
    ensures TrimTrailing(s, c) <= s
    ensures forall i | |TrimTrailing(s, c)| <= i < |s| :: s[i] == c
    decreases |s|
  {
    if |s| > 0 && s[|s| - 1] == c {
      TrimmedRun(s[..|s| - 1], c);
    }
  }

  /** The number of leading `c` in `s`. */
  function LeadingCount(s: string, c: char): (n: nat)
    ensures n <= |s|
    ensures n == |s| || s[n] != c
    decreases |s|
  {
    if |s| > 0 && s[0] == c then 1 + LeadingCount(s[1..], c) else 0
  }

  /** The position of the last `c` in `s`, or -1 when there is none. */
  function LastIndex(s: string, c: char): (k: int)
    ensures -1 <= k < |s|
    ensures k >= 0 ==> s[k] == c
    decreases |s|
  {
    if |s| == 0 then -1
    else if s[|s| - 1] == c then |s| - 1
    else LastIndex(s[..|s| - 1], c)
  }

  /** Nothing after the last `c` is a `c`. */
  lemma {:induction false} LastIndexIsLast(s: string, c: char)
    ensures forall j | LastIndex(s, c) < j < |s| :: s[j] != c
    decreases |s|
  {
    if |s| > 0 && s[|s| - 1] != c {
      var t := s[..|s| - 1];
      LastIndexIsLast(t, c);
      forall j | LastIndex(s, c) < j < |s| - 1
        ensures s[j] != c
      {
        assert s[j] == t[j];
      }
    }
  }

  /** Conversely, a `c` with none after it is the last one. */
  lemma {:induction false} LastIndexIs(s: string, c: char, k: nat)
    requires k < |s| && s[k] == c
    requires forall j | k < j < |s| :: s[j] != c
    ensures LastIndex(s, c) == k
    decreases |s|
  {
    if k < |s| - 1 {
      var t := s[..|s| - 1];
      assert t[k] == s[k];
      forall j | k < j < |t|
        ensures t[j] != c
      {
        assert t[j] == s[j];
      }
      LastIndexIs(t, c, k);
    }
  }

  /** The last `c` in a suffix that still contains it. */
  lemma LastIndexOfSuffix(s: string, c: char, m: nat)
    requires m <= LastIndex(s, c)
    ensures LastIndex(s[m..], c) == LastIndex(s, c) - m
  {
    var k := LastIndex(s, c);
    var t := s[m..];
    LastIndexIsLast(s, c);
    assert t[k - m] == s[k];
    forall j | k - m < j < |t|
      ensures t[j] != c
    {
      assert t[j] == s[j + m];
    }
    LastIndexIs(t, c, k - m);
  }

  /* ---------------------------------------------------------------------
   * File.dirname
   * ------------------------------------------------------------------- */

  /** `p` with a leading run of separators collapsed to one, which is how
      `File.dirname` reads a path: an absolute path keeps exactly one
      leading separator. */
  function CollapseRoot(p: string): (c: string)
    ensures |c| <= |p|
    ensures !IsAbsolute(p) ==> c == p
    ensures IsAbsolute(p) ==> IsAbsolute(c) && (|c| == 1 || c[1] != '/')
    decreases |p|
  {
    if |p| >= 2 && p[0] == '/' && p[1] == '/' then CollapseRoot(p[1..]) else p
  }

  /** Collapsing drops only separators, and only from the front. */
  lemma {:induction false} CollapseRootDropsSeparators(p: string)
    ensures CollapseRoot(p) == p[|p| - |CollapseRoot(p)|..]
    ensures forall i | 0 <= i < |p| - |CollapseRoot(p)| :: p[i] == '/'
    decreases |p|
  {
    if |p| >= 2 && p[0] == '/' && p[1] == '/' {
      CollapseRootDropsSeparators(p[1..]);
      assert p[1..][|p| - 1 - |CollapseRoot(p)|..] == p[|p| - |CollapseRoot(p)|..];
      forall i | 1 <= i < |p| - |CollapseRoot(p)|
        ensures p[i] == '/'
      {
        assert p[i] == p[1..][i - 1];
      }
    }
  }

  /** `File.dirname`: a leading run of separators counts as one; trailing
      separators are ignored, then everything before the last separator,
      without its own trailing separators; "." when there is no separator
      and "/" when only the root is left. */
  function Dirname(p: string): (r: string)
    ensures r != ""
    ensures r == "/" || r == "." || r[|r| - 1] != '/'
  {
    DirnameCollapsed(CollapseRoot(p))
  }

  /** `File.dirname` of a path whose root, if any, is a single separator. */
  function DirnameCollapsed(c: string): (r: string)
    ensures r != ""
    ensures r == "/" || r == "." || r[|r| - 1] != '/'
  {
    var q := TrimTrailing(c, '/');
    if q == "" then (if c == "" then "." else "/")
    else
      var k := LastIndex(q, '/');
      if k < 0 then "."
      else
        var d := TrimTrailing(q[..k], '/');
        if d == "" then "/" else d
  }

  /** The directory is "." or a prefix of the path with its root collapsed. */
  lemma DirnamePrefix(p: string)
    ensures Dirname(p) == "." || Dirname(p) <= CollapseRoot(p)
  {
    var c := CollapseRoot(p);
    var q := TrimTrailing(c, '/');
    TrimmedRun(c, '/');
    if q == "" {
      if c != "" {
        assert c[0] == '/';
      }
    } else {
      var k := LastIndex(q, '/');
      if k >= 0 {
        var d := TrimTrailing(q[..k], '/');
        assert q[0] == c[0];
        if d == "" {
          assert q[0] == '/' by {
            if k > 0 {
              TrimmedRun(q[..k], '/');
              assert q[..k][0] == '/';
            }
          }
        } else {
          TrimmedRun(q[..k], '/');
          PrefixOfPrefix(d, q[..k], q, c);
        }
      }
    }
  }

  /** Being a prefix is transitive. */
  lemma PrefixOfPrefix(a: string, b: string, c: string, d: string)
    requires a <= b && b <= c && c <= d
    ensures a <= d
  {
    assert a == b[..|a|] == c[..|a|] == d[..|a|];
  }

  /** The directory of an absolute path is absolute and, whatever run of
      separators the path starts with, begins with a single one. */
  lemma DirnameAbsolute(p: string)
    ensures IsAbsolute(p) ==> IsAbsolute(Dirname(p))
    ensures IsAbsolute(p) ==> |Dirname(p)| == 1 || Dirname(p)[1] != '/'
  {
    if IsAbsolute(p) {
      var c := CollapseRoot(p);
      var q := TrimTrailing(c, '/');
      TrimmedRun(c, '/');
      if q != "" {
        assert q[0] == c[0] == '/';
        LastIndexIsLast(q, '/');
        var k := LastIndex(q, '/');
        assert k >= 0;
        if k > 0 {
          TrimmedRun(q[..k], '/');
          assert q[..k][0] == '/';
        }
      }
      var r := Dirname(p);
      assert r != ".";
      DirnamePrefix(p);
      assert r[0] == c[0];
      if |r| > 1 {
        assert r[1] == c[1];
      }
    }
  }

  /* ---------------------------------------------------------------------
   * File.basename and File.extname
   * ------------------------------------------------------------------- */

  /** `File.basename`: the last component, trailing separators ignored. */
  function Basename(p: string): string {
    var q := TrimTrailing(p, '/');
    if q == "" then (if p == "" then "" else "/")
    else q[LastIndex(q, '/') + 1..]
  }

  /** The last component holds no separator unless it is the root itself,
      and it is empty only for the empty path. */
  lemma BasenameIsComponent(p: string)
    ensures Basename(p) == "/" || '/' !in Basename(p)
    ensures Basename(p) == "" <==> p == ""
  {
    var q := TrimTrailing(p, '/');
    if q != "" {
      var k := LastIndex(q, '/');
      LastIndexIsLast(q, '/');
      AfterLastHasNone(q, '/', k);
    }
  }

  /** The text after a position beyond which there is no `c`, in a string
      that does not end with `c`, is non-empty and free of `c`. */
  lemma AfterLastHasNone(q: string, c: char, k: int)
    requires -1 <= k < |q| && |q| > 0 && q[|q| - 1] != c && (k >= 0 ==> q[k] == c)
    requires forall j | k < j < |q| :: q[j] != c
    ensures k + 1 < |q|
    ensures c !in q[k + 1..]
  {
  }

  /** The extension of a single component as `File.extname` finds it on
      Unix: leading dots are skipped, then the text from the last dot on
      (so ".bashrc" has none and "c." has "."). */
  function ComponentExt(name: string): (e: string)
    ensures |e| <= |name|
    ensures e == "" || (e[0] == '.' && |e| < |name|)
  {
    var k := LastIndex(name, '.');
    if k < LeadingCount(name, '.') then "" else name[k..]
  }

  /** The extension is the suffix from the last dot on, that dot is not one
      of the leading dots, and there is none exactly when no dot follows
      the leading ones. */
  lemma ComponentExtIsLastDot(name: string)
    ensures ComponentExt(name) == name[|name| - |ComponentExt(name)|..]
    ensures ComponentExt(name) != "" ==> LeadingCount(name, '.') <= |name| - |ComponentExt(name)|
    ensures ComponentExt(name) != "" ==> '.' !in ComponentExt(name)[1..]
    ensures ComponentExt(name) == "" <==> forall i | LeadingCount(name, '.') <= i < |name| :: name[i] != '.'
  {
    var e := ComponentExt(name);
    var k := LastIndex(name, '.');
    LastIndexIsLast(name, '.');
    if e != "" {
      assert e == name[k..];
      forall x | 1 <= x < |e|
        ensures e[x] != '.'
      {
        assert e[x] == name[k + x];
      }
    }
  }

  /** `File.extname`. */
  function Extname(p: string): string {
    ComponentExt(Basename(p))
  }

  /** `File.basename(p, File.extname(p))`: the last component with its
      extension removed. The extension is always a proper suffix of the
      component, so Ruby's rule of keeping a name equal to its suffix never
      applies. */
  function Stem(p: string): string {
    var b := Basename(p);
    b[..|b| - |ComponentExt(b)|]
  }

  /* ---------------------------------------------------------------------
   * The derived default paths
   * ------------------------------------------------------------------- */

  /** The path derivation of the type's defaults,
      `"#{dirname}/#{basename(extname)}#{suffix}"`: it ends with the
      suffix, and it is absolute whenever the path is. */
  function Sibling(p: string, suffix: string): (r: string)
    ensures |r| > |suffix| && r[|r| - |suffix|..] == suffix
    ensures IsAbsolute(p) ==> IsAbsolute(r)
  {
    DirnameAbsolute(p);
    var r := Dirname(p) + "/" + Stem(p) + suffix;
    assert r[|r| - |suffix|..] == suffix;
    r
  }

  /** The pieces the derivation is made of. */
  lemma SiblingParts(p: string, suffix: string)
    ensures |Extname(p)| <= |Basename(p)|
    ensures Stem(p) == Basename(p)[..|Basename(p)| - |Extname(p)|]
    ensures Sibling(p, suffix) == Dirname(p) + "/" + Stem(p) + suffix
  {
  }

  /** A path whose last separator is single, not the root, and not trailing
      is its directory, a separator and its last component, once its
      leading separators are collapsed to one as `File.dirname` does. */
  lemma {:induction false} DirnameBasenameJoin(p: string)
    requires IsAbsolute(p) && p[|p| - 1] != '/'
    requires LastIndex(p, '/') > 0 && p[LastIndex(p, '/') - 1] != '/'
    ensures Dirname(p) + "/" + Basename(p) == CollapseRoot(p)
    decreases |p|
  {
    if p[1] == '/' {
      DropDoubledRoot(p);
      SameAfterDoubledRoot(p);
      BasenameAfterDoubledRoot(p);
      DirnameBasenameJoin(p[1..]);
    } else {
      var k := LastIndex(p, '/');
      assert TrimTrailing(p, '/') == p;
      JoinCollapsed(p, k);
    }
  }

  /** Dropping the first of a doubled root keeps the join's conditions. */
  lemma DropDoubledRoot(p: string)
    requires IsAbsolute(p) && p[|p| - 1] != '/'
    requires LastIndex(p, '/') > 0 && p[LastIndex(p, '/') - 1] != '/'
    requires p[1] == '/'
    ensures var t := p[1..]; IsAbsolute(t) && t[|t| - 1] != '/'
    ensures var t := p[1..]; LastIndex(t, '/') == LastIndex(p, '/') - 1 > 0
    ensures var t := p[1..]; t[LastIndex(t, '/') - 1] != '/'
  {
    var k := LastIndex(p, '/');
    var t := p[1..];
    LastIndexOfSuffix(p, '/', 1);
    assert t[0] == p[1] && t[|t| - 1] == p[|p| - 1] && t[k - 2] == p[k - 1];
  }

  /** ... and keeps the collapsed path, so the directory too ... */
  lemma SameAfterDoubledRoot(p: string)
    requires |p| >= 2 && p[0] == '/' && p[1] == '/'
    ensures CollapseRoot(p) == CollapseRoot(p[1..])
    ensures Dirname(p) == Dirname(p[1..])
  {
  }

  /** ... and the last component. */
  lemma BasenameAfterDoubledRoot(p: string)
    requires |p| >= 2 && p[|p| - 1] != '/'
    requires LastIndex(p, '/') > 0
    requires LastIndex(p[1..], '/') == LastIndex(p, '/') - 1
    ensures Basename(p) == Basename(p[1..])
  {
    var k := LastIndex(p, '/');
    var t := p[1..];
    BasenameAt(p);
    assert t[|t| - 1] == p[|p| - 1];
    BasenameAt(t);
    assert t[k..] == p[k + 1..];
  }

  /** The last component of a path without a trailing separator is the
      text after its last separator. */
  lemma BasenameAt(p: string)
    requires |p| > 0 && p[|p| - 1] != '/'
    ensures Basename(p) == p[LastIndex(p, '/') + 1..]
  {
    assert TrimTrailing(p, '/') == p;
  }

  /** The join for a path whose root is already collapsed. */
  lemma JoinCollapsed(c: string, k: nat)
    requires 0 < k == LastIndex(c, '/') && c[k - 1] != '/' && c[|c| - 1] != '/'
    ensures DirnameCollapsed(c) + "/" + c[k + 1..] == c
  {
    DirnameCollapsedAt(c, k);
    SplitAtSeparator(c, k);
  }

  /** Such a path's directory is the text before its last separator. */
  lemma DirnameCollapsedAt(c: string, k: nat)
    requires 0 < k == LastIndex(c, '/') && c[k - 1] != '/' && c[|c| - 1] != '/'
    ensures DirnameCollapsed(c) == c[..k]
  {
    assert TrimTrailing(c, '/') == c;
    assert TrimTrailing(c[..k], '/') == c[..k];
  }

  /** A string is the text before a separator, the separator and the text
      after it. */
  lemma SplitAtSeparator(s: string, k: nat)
    requires k < |s| && s[k] == '/'
    ensures s[..k] + "/" + s[k + 1..] == s
  {
    assert s[..k] + [s[k]] + s[k + 1..] == s;
  }

  /** Under the same conditions the derived sibling is the path, its
      leading separators collapsed, with its extension replaced by `suffix`. */
  lemma SiblingReplacesExtension(p: string, suffix: string)
    requires IsAbsolute(p) && p[|p| - 1] != '/'
    requires LastIndex(p, '/') > 0 && p[LastIndex(p, '/') - 1] != '/'
    ensures |Extname(p)| <= |CollapseRoot(p)|
    ensures Sibling(p, suffix) == CollapseRoot(p)[..|CollapseRoot(p)| - |Extname(p)|] + suffix
  {
    DirnameBasenameJoin(p);
    SiblingOfJoined(p, CollapseRoot(p), suffix);
  }

  /** A path whose directory, a separator and last component make up `c`
      derives `c` with its extension replaced. */
  lemma SiblingOfJoined(p: string, c: string, suffix: string)
    requires Dirname(p) + "/" + Basename(p) == c
    ensures |Extname(p)| <= |c|
    ensures Sibling(p, suffix) == c[..|c| - |Extname(p)|] + suffix
  {
    var d, b := Dirname(p), Basename(p);
    var e, st, sib := Extname(p), Stem(p), Sibling(p, suffix);
    SiblingParts(p, suffix);
    ReplaceLastExtension(c, d, b, e, st, suffix, sib);
  }

  /** The sequence arithmetic behind `SiblingReplacesExtension`: joining a
      directory to a component whose suffix `e` is replaced. */
  lemma ReplaceLastExtension(p: string, d: string, b: string, e: string, st: string,
                             suffix: string, sib: string)
    requires d + "/" + b == p && |e| <= |b|
    requires st == b[..|b| - |e|] && sib == d + "/" + st + suffix
    ensures |e| <= |p|
    ensures sib == p[..|p| - |e|] + suffix
  {
    PrefixOfAppend(d + "/", b, |b| - |e|);
  }

  /** Taking a prefix of `a + b` that keeps all of `a`. */
  lemma PrefixOfAppend(a: string, b: string, m: nat)
    requires m <= |b|
    ensures a + b[..m] == (a + b)[..|a| + m]
  {
  }

  /** A doubled root is read as a single one: "//etc/c.crt" has the
      directory "/etc" and the derived key "/etc/c.key". */
  lemma DoubledRootCollapses()
    ensures Dirname("//etc/c.crt") == "/etc"
    ensures Sibling("//etc/c.crt", ".key") == "/etc/c.key"
  {
    var p := "//etc/c.crt";
    ExampleLastSeparator();
    SiblingReplacesExtension(p, ".key");
    ExampleCollapsed();
    ExampleExtension();
    ExampleDirname();
  }

  /** The example's directory, from the join of its collapsed form. */
  lemma ExampleDirname()
    ensures Dirname("//etc/c.crt") == "/etc"
  {
    var p := "//etc/c.crt";
    ExampleLastSeparator();
    DirnameBasenameJoin(p);
    ExampleCollapsed();
    ExampleExtension();
    var d := Dirname(p);
    assert d + "/" + "c.crt" == "/etc/c.crt";
    assert |d| == 4;
    assert d == (d + "/" + "c.crt")[..4];
  }

  /** The last separator of the example is at position 5. */
  lemma ExampleLastSeparator()
    ensures LastIndex("//etc/c.crt", '/') == 5
  {
    var p := "//etc/c.crt";
    forall j | 5 < j < |p|
      ensures p[j] != '/'
    {
    }
    LastIndexIs(p, '/', 5);
  }

  /** The example with its doubled root collapsed. */
  lemma ExampleCollapsed()
    ensures CollapseRoot("//etc/c.crt") == "/etc/c.crt"
  {
    var p := "//etc/c.crt";
    assert p[1..] == "/etc/c.crt";
  }

  /** The example's last component and extension. */
  lemma ExampleExtension()
    ensures Basename("//etc/c.crt") == "c.crt"
    ensures Extname("//etc/c.crt") == ".crt"
  {
    var p := "//etc/c.crt";
    ExampleLastSeparator();
    assert TrimTrailing(p, '/') == p;
    var b := "c.crt";
    assert p[6..] == b;
    LastIndexIs(b, '.', 1);
    assert b[1..] == ".crt";
  }

  /** A file directly under the root gets a doubled leading separator:
      `dirname` is "/" and the derivation adds another "/". */
  lemma SiblingAtRoot(name: string, suffix: string)
    requires '/' !in name && name != ""
    ensures Sibling("/" + name, suffix) == "//" + Stem("/" + name) + suffix
  {
    var p := "/" + name;
    DirnameAtRoot(name);
    SiblingParts(p, suffix);
    var st, sib := Stem(p), Sibling(p, suffix);
    assert sib == "/" + "/" + st + suffix;
    assert "/" + "/" == "//";
  }

  /** The directory of a file directly under the root is the root. */
  lemma DirnameAtRoot(name: string)
    requires '/' !in name && name != ""
    ensures Dirname("/" + name) == "/"
  {
    var p := "/" + name;
    assert p[1] == name[0] != '/';
    assert CollapseRoot(p) == p;
    assert p[|p| - 1] == name[|name| - 1] != '/';
    assert TrimTrailing(p, '/') == p;
    forall j | 0 < j < |p|
      ensures p[j] != '/'
    {
      assert p[j] == name[j - 1];
    }
    LastIndexIs(p, '/', 0);
    assert TrimTrailing(p[..0], '/') == "";
  }
}

=== FILE: provider.dfy ===
/**
 * The OpenSSL provider's reconciliation decision (`exists?`) and the
 * key-algorithm dispatch of `private_key`. Reading files, parsing keys and
 * certificates and the key/certificate match itself are not modelled: the
 * host state supplies whether the certificate file is present, whether the
 * configured key matches it, and the certificate and template as read.
 */
module Provider {
  import opened Results
  import opened Parameters
  import opened Equivalence

  /** The key types `private_key` can load. */
  datatype KeyAlgorithm = Dsa | Rsa

  /** `private_key`'s dispatch on `authentication`: "dsa" loads a DSA key,
      "rsa" an RSA key, anything else raises "Unknown authentication type". */
  function PrivateKeyAlgorithm(authentication: string): (r: Result<KeyAlgorithm>)
    ensures r == Success(Dsa) <==> authentication == "dsa"
    ensures r == Success(Rsa) <==> authentication == "rsa"
    ensures r.Failure? <==> authentication != "dsa" && authentication != "rsa"
    ensures r.Failure? ==> r.error == UnknownAuthentication(authentication)
  {
    if authentication == "dsa" then Success(Dsa)
    else if authentication == "rsa" then Success(Rsa)
    else Failure(UnknownAuthentication(authentication))
  }

  /** What `exists?` observes on the host. */
  datatype Host = Host(
    certificatePresent: bool,     // a file exists at `path`
    keyMatchesCertificate: bool,  // the private key is the certificate's key
    certificate: Certificate,     // the certificate at `path`, as read
    template: Template)           // the template, as parsed

  /** `exists?`: no file means absent; with `force`, a key that does not
      match (or an algorithm the dispatch rejects, which raises) decides
      before the template comparison; otherwise the template comparison
      decides. */
  function Exists(res: Resource, host: Host): (r: Result<bool>)
    ensures !host.certificatePresent ==> r == Success(false)
    ensures r == Success(true)
            <==> && host.certificatePresent
                 && (res.force ==> PrivateKeyAlgorithm(res.authentication).Success? && host.keyMatchesCertificate)
                 && OldCertIsEqual(host.certificate, host.template)
    ensures r.Failure?
            <==> host.certificatePresent && res.force && PrivateKeyAlgorithm(res.authentication).Failure?
    ensures r.Failure? ==> r.error == UnknownAuthentication(res.authentication)
  {
    if host.certificatePresent then
      if res.force then
        match PrivateKeyAlgorithm(res.authentication)
        case Failure(e) => Failure(e)
        case Success(_) =>
          if !host.keyMatchesCertificate then Success(false)
          else Success(OldCertIsEqual(host.certificate, host.template))
      else Success(OldCertIsEqual(host.certificate, host.template))
    else Success(false)
  }

  /** Without `force` the key is never consulted: `exists?` is the template
      comparison whatever the key match and the algorithm. */
  lemma WithoutForceKeyIgnored(res: Resource, host: Host, keyMatches: bool, authentication: string)
    requires !res.force && host.certificatePresent
    ensures Exists(res, host) == Success(OldCertIsEqual(host.certificate, host.template))
    ensures Exists(res.(authentication := authentication), host.(keyMatchesCertificate := keyMatches))
            == Exists(res, host)
  {
  }

  /** With `force`, a key that does not match the certificate makes the
      resource absent even when the certificate equals the template. */
  lemma ForcedKeyMismatchIsAbsent(res: Resource, host: Host)
    requires res.force && host.certificatePresent && !host.keyMatchesCertificate
    requires res.authentication == "rsa" || res.authentication == "dsa"
    requires OldCertIsEqual(host.certificate, host.template)
    ensures Exists(res, host) == Success(false)
  {
  }

  /** Validation of `authentication` is weaker than the dispatch: a value
      the type accepts can still make a forced `exists?` raise. */
  lemma AcceptedAuthenticationMayRaise(res: Resource, host: Host)
    requires res.authentication == "xrsax" && res.force && host.certificatePresent
    ensures AuthenticationAccepted(res.authentication)
    ensures Exists(res, host) == Failure(UnknownAuthentication("xrsax"))
  {
    LaxAuthenticationPattern();
  }
}

=== FILE: results.dfy ===
/**
 * An optional value and a result with an error, shared by the model: an
 * optional value is a Ruby `nil` or a present value, and a result is either
 * a value or one of the errors the type and the provider raise.
 */
module Results {

  /** A value that may be absent (Ruby `nil`). */
  datatype Option<+T> = None | Some(value: T) {

    /** The carried value, or `default` when absent. */
    function GetOr(default: T): T {
      match this
      case Some(v) => v
      case None => default
    }
  }

  /** The exceptions raised by parameter validation and by the provider. */
  datatype Error =
    | NotAbsolute(param: string, value: string)        // ArgumentError "Path must be absolute"
    | ContainsNul(param: string, value: string)        // ArgumentError from `Pathname.new`: "pathname contains null byte"
    | InvalidValue(param: string, value: string)       // a value outside the parameter's `newvalues`
    | UnknownAuthentication(value: string)             // Puppet::Error from the key-algorithm dispatch

  /** Either a value or the error that was raised instead. */
  datatype Result<+T> = Success(value: T) | Failure(error: Error)
}

=== FILE: text.dfy ===
/**
 * The Ruby string operations the provider applies to certificate and
 * template text, each with the exact Ruby semantics that matter here:
 *  - `String#split` with a one-character separator, which drops trailing
 *    empty fields;
 *  - `String#delete` of one character;
 *  - `gsub(/^"|"$/, '')`, whose anchors are LINE anchors in Ruby;
 *  - `gsub` of a literal word, replacing non-overlapping occurrences from
 *    the left.
 */
module Text {

  /* ---------------------------------------------------------------------
   * Splitting
   * ------------------------------------------------------------------- */

  /** The fields written back with `sep` between consecutive ones. */
  function Join(fields: seq<string>, sep: char): string
    requires |fields| > 0
    decreases |fields|
  {
    if |fields| == 1 then fields[0] else fields[0] + [sep] + Join(fields[1..], sep)
  }

  /** Every field between occurrences of `sep`, empty fields included. */
  function SplitAll(s: string, sep: char): (fields: seq<string>)
    ensures |fields| > 0
    ensures forall i | 0 <= i < |fields| :: sep !in fields[i]
    ensures Join(fields, sep) == s
    decreases |s|
  {
    if |s| == 0 then [""]
    else
      var rest := SplitAll(s[1..], sep);
      if s[0] == sep then
        var r := [""] + rest;
        assert r[1..] == rest;
        assert s == [s[0]] + s[1..];
        r
      else
        var r := [[s[0]] + rest[0]] + rest[1..];
        assert r[1..] == rest[1..];
        assert |rest| > 1 ==> Join(rest, sep) == rest[0] + [sep] + Join(rest[1..], sep);
        assert s == [s[0]] + s[1..];
        r
  }

  /** A field without `sep` is split off intact at the first `sep`. */
  lemma {:induction false} SplitAllAtSeparator(a: string, sep: char, b: string)
    requires sep !in a
    ensures SplitAll(a + [sep] + b, sep) == [a] + SplitAll(b, sep)
    decreases |a|
  {
    if |a| == 0 {
      assert a + [sep] + b == [sep] + b;
      assert ([sep] + b)[1..] == b;
    } else {
      var s := a + [sep] + b;
      assert s[0] == a[0];
      assert s[1..] == a[1..] + [sep] + b;
      SplitAllAtSeparator(a[1..], sep, b);
      assert [a[0]] + a[1..] == a;
    }
  }

  /** A string without `sep` is one field. */
  lemma {:induction false} SplitAllNoSeparator(a: string, sep: char)
    requires sep !in a
    ensures SplitAll(a, sep) == [a]
    decreases |a|
  {
    if |a| > 0 {
      SplitAllNoSeparator(a[1..], sep);
      assert [a[0]] + a[1..] == a;
    }
  }

  /** Splitting undoes joining: SplitAll and Join are inverse bijections
      between strings and non-empty sequences of `sep`-free fields. */
  lemma {:induction false} SplitAllJoin(fields: seq<string>, sep: char)
    requires |fields| > 0
    requires forall i | 0 <= i < |fields| :: sep !in fields[i]
    ensures SplitAll(Join(fields, sep), sep) == fields
    decreases |fields|
  {
    if |fields| == 1 {
      SplitAllNoSeparator(fields[0], sep);
    } else {
      SplitAllJoin(fields[1..], sep);
      SplitAllAtSeparator(fields[0], sep, Join(fields[1..], sep));
      assert [fields[0]] + fields[1..] == fields;
    }
  }

  /** The fields without their trailing run of empty fields. */
  function DropTrailingEmpty(fields: seq<string>): (r: seq<string>)
    ensures r <= fields
    ensures |r| > 0 ==> r[|r| - 1] != ""
    ensures forall i | |r| <= i < |fields| :: fields[i] == ""
    decreases |fields|
  {
    if |fields| == 0 then []
    else if fields[|fields| - 1] == "" then DropTrailingEmpty(fields[..|fields| - 1])
    else fields
  }

  /** Ruby's `s.split(sep)` for a one-character separator other than a
      space: all fields, then trailing empty fields removed (so "" and
      "==" both split to no fields at all). */
  function RubySplit(s: string, sep: char): (fields: seq<string>)
    ensures fields <= SplitAll(s, sep)
    ensures forall i | 0 <= i < |fields| :: sep !in fields[i]
    ensures |fields| > 0 ==> fields[|fields| - 1] != ""
    ensures forall i | |fields| <= i < |SplitAll(s, sep)| :: SplitAll(s, sep)[i] == ""
  {
    DropTrailingEmpty(SplitAll(s, sep))
  }

  /* ---------------------------------------------------------------------
   * String#delete of one character
   * ------------------------------------------------------------------- */

  /** `s.delete(c)` for a single character `c`: `s` with every `c` removed. */
  function Delete(s: string, c: char): (r: string)
    ensures c !in r
    ensures |r| <= |s|
    decreases |s|
  {
    if |s| == 0 then ""
    else (if s[0] == c then "" else [s[0]]) + Delete(s[1..], c)
  }

  /** Deleting distributes over concatenation. */
  lemma {:induction false} DeleteAppend(a: string, b: string, c: char)
    ensures Delete(a + b, c) == Delete(a, c) + Delete(b, c)
    decreases |a|
  {
    if |a| > 0 {
      assert (a + b)[0] == a[0];
      assert (a + b)[1..] == a[1..] + b;
      DeleteAppend(a[1..], b, c);
    } else {
      assert a + b == b;
    }
  }

  /** A string without `c` is left unchanged. */
  lemma {:induction false} DeleteAbsent(s: string, c: char)
    requires c !in s
    ensures Delete(s, c) == s
    decreases |s|
  {
    if |s| > 0 {
      DeleteAbsent(s[1..], c);
      assert [s[0]] + s[1..] == s;
    }
  }

  /** Deleting never introduces a character. */
  lemma {:induction false} DeleteNoNew(s: string, c: char, x: char)
    requires x !in s
    ensures x !in Delete(s, c)
    decreases |s|
  {
    if |s| > 0 {
      assert x !in s[1..];
      DeleteNoNew(s[1..], c, x);
    }
  }

  /** `s` with one more `c` inserted at position `i`. */
  function InsertAt(s: string, i: nat, c: char): (r: string)
    requires i <= |s|
    ensures |r| == |s| + 1 && r[i] == c
    ensures r[..i] == s[..i] && r[i + 1..] == s[i..]
  {
    s[..i] + [c] + s[i..]
  }

  /** Inserting a deleted character anywhere leaves the deletion unchanged. */
  lemma DeleteInsert(s: string, i: nat, c: char)
    requires i <= |s|
    ensures Delete(InsertAt(s, i, c), c) == Delete(s, c)
  {
    var a, b := s[..i], s[i..];
    assert InsertAt(s, i, c) == (a + [c]) + b;
    assert s == a + b;
    DeleteAppend(a + [c], b, c);
    DeleteAppend(a, [c], c);
    DeleteAppend(a, b, c);
    assert Delete([c], c) == "";
    assert Delete(a + [c], c) == Delete(a, c);
  }

  /* ---------------------------------------------------------------------
   * gsub(/^"|"$/, '')
   * ------------------------------------------------------------------- */

  /** Ruby `^` holds at position `i`: the start of the string or just after a newline. */
  predicate LineStart(s: string, i: nat)
    requires i <= |s|
  {
    i == 0 || s[i - 1] == '\n'
  }

  /** Ruby `$` holds at position `j`: the end of the string or just before a newline. */
  predicate LineEnd(s: string, j: nat)
    requires j <= |s|
  {
    j == |s| || s[j] == '\n'
  }

  /** The character at `i` is a double quote matched by `^"` or by `"$`. */
  predicate AnchoredQuote(s: string, i: nat)
    requires i < |s|
  {
    s[i] == '"' && (LineStart(s, i) || LineEnd(s, i + 1))
  }

  /** The characters of `s` from position `i` on that the substitution keeps. */
  function KeepUnanchored(s: string, i: nat): (r: string)
    requires i <= |s|
    ensures |r| <= |s| - i
    decreases |s| - i
  {
    if i == |s| then ""
    else (if AnchoredQuote(s, i) then "" else [s[i]]) + KeepUnanchored(s, i + 1)
  }

  /** `s.gsub(/^"|"$/, '')`: every quote at the start or end of a line removed.
      Each match is one character wide, so the matches never overlap and the
      substitution is a filter over positions of the original string. */
  function StripAnchoredQuotes(s: string): (r: string)
    ensures |r| <= |s|
  {
    KeepUnanchored(s, 0)
  }

  /** One leading and one trailing double quote dropped (the reading of the
      substitution for a single line). */
  function DropEdgeQuotes(s: string): (r: string)
    ensures |r| <= |s|
  {
    var t := if |s| > 0 && s[0] == '"' then s[1..] else s;
    if |t| > 0 && t[|t| - 1] == '"' then t[..|t| - 1] else t
  }

  /** Away from the first position of a single-line string only the final quote goes. */
  lemma {:induction false} KeepUnanchoredInterior(s: string, i: nat)
    requires '\n' !in s
    requires 1 <= i < |s|
    ensures KeepUnanchored(s, i)
            == s[i..|s| - 1] + (if s[|s| - 1] == '"' then "" else [s[|s| - 1]])
    decreases |s| - i
  {
    if i < |s| - 1 {
      assert s[i - 1] != '\n' && s[i + 1] != '\n';
      assert !AnchoredQuote(s, i);
      KeepUnanchoredInterior(s, i + 1);
      assert s[i..|s| - 1] == [s[i]] + s[i + 1..|s| - 1];
    } else {
      assert s[i - 1] != '\n';
    }
  }

  /** On a newline-free string the line-anchored substitution removes exactly
      one leading and one trailing double quote (a lone `"` becomes empty). */
  lemma StripAnchoredQuotesSingleLine(s: string)
    requires '\n' !in s
    ensures StripAnchoredQuotes(s) == DropEdgeQuotes(s)
  {
    if |s| >= 2 {
      KeepUnanchoredInterior(s, 1);
      if s[0] != '"' {
        assert s[0..|s| - 1] == [s[0]] + s[1..|s| - 1];
      } else {
        assert s[1..][..|s[1..]| - 1] == s[1..|s| - 1];
      }
    }
  }

  /** A string with no double quote passes through the substitution unchanged. */
  lemma {:induction false} StripAnchoredQuotesNoQuote(s: string)
    requires '"' !in s
    ensures StripAnchoredQuotes(s) == s
  {
    KeepUnanchoredNoQuote(s, 0);
  }

  lemma {:induction false} KeepUnanchoredNoQuote(s: string, i: nat)
    requires '"' !in s
    requires i <= |s|
    ensures KeepUnanchored(s, i) == s[i..]
    decreases |s| - i
  {
    if i < |s| {
      KeepUnanchoredNoQuote(s, i + 1);
      assert s[i..] == [s[i]] + s[i + 1..];
    }
  }

  /* ---------------------------------------------------------------------
   * gsub of a literal word
   * ------------------------------------------------------------------- */

  /** `s.gsub(pat, rep)` for a non-empty literal `pat`: scanning from the
      left, each occurrence is replaced and scanning resumes after it. */
  function ReplaceAll(s: string, pat: string, rep: string): (r: string)
    requires |pat| > 0
    ensures |rep| <= |pat| ==> |r| <= |s|
    ensures |s| < |pat| ==> r == s
    decreases |s|
  {
    if |s| == 0 then ""
    else if pat <= s then rep + ReplaceAll(s[|pat|..], pat, rep)
    else [s[0]] + ReplaceAll(s[1..], pat, rep)
  }

  /** An occurrence at the front is replaced and the scan continues after it. */
  lemma ReplaceAllFront(pat: string, b: string, rep: string)
    requires |pat| > 0
    ensures ReplaceAll(pat + b, pat, rep) == rep + ReplaceAll(b, pat, rep)
  {
    assert (pat + b)[|pat|..] == b;
  }

  /** `pat` occurs in `s` starting at position `i`. */
  predicate OccursAt(s: string, pat: string, i: int) {
    0 <= i && i + |pat| <= |s| && s[i..i + |pat|] == pat
  }

  /** No occurrence starts at a position not holding the pattern's first character. */
  lemma NoOccurrenceWithoutFirstChar(s: string, pat: string, n: nat)
    requires |pat| > 0 && n <= |s|
    requires forall i | 0 <= i < n :: s[i] != pat[0]
    ensures forall i | 0 <= i < n :: !OccursAt(s, pat, i)
  {
    forall i | 0 <= i < n
      ensures !OccursAt(s, pat, i)
    {
      if i + |pat| <= |s| {
        assert s[i..i + |pat|][0] == s[i];
      }
    }
  }

  /** An occurrence at position `i + 1` is one at `i` of the tail. */
  lemma OccursAtTail(s: string, pat: string, i: int)
    requires |s| > 0 && 0 <= i
    ensures OccursAt(s[1..], pat, i) <==> OccursAt(s, pat, i + 1)
  {
    if i + 1 + |pat| <= |s| {
      assert s[1..][i..i + |pat|] == s[i + 1..i + 1 + |pat|];
    }
  }

  /** Without an occurrence at the front, the scan does not see the pattern there. */
  lemma NoOccurrenceAtFront(s: string, pat: string)
    requires !OccursAt(s, pat, 0)
    ensures !(pat <= s)
  {
    if |pat| <= |s| {
      assert s[0..|pat|] == s[..|pat|];
    }
  }

  /** Text before the first occurrence is copied through unchanged: if no
      occurrence starts inside `a`, the substitution leaves `a` as it is and
      carries on with the rest. */
  lemma {:induction false} ReplaceAllCopies(a: string, t: string, pat: string, rep: string)
    requires |pat| > 0
    requires forall i | 0 <= i < |a| :: !OccursAt(a + t, pat, i)
    ensures ReplaceAll(a + t, pat, rep) == a + ReplaceAll(t, pat, rep)
    decreases |a|
  {
    if |a| == 0 {
      assert a + t == t;
    } else {
      var s := a + t;
      var u := a[1..] + t;
      NoOccurrenceAtFront(s, pat);
      assert s[1..] == u;
      forall i | 0 <= i < |a| - 1
        ensures !OccursAt(u, pat, i)
      {
        OccursAtTail(s, pat, i);
      }
      ReplaceAllCopies(a[1..], t, pat, rep);
      assert [a[0]] + a[1..] == a;
    }
  }

  /** Text without any occurrence of the pattern is left unchanged. */
  lemma ReplaceAllNoOccurrence(s: string, pat: string, rep: string)
    requires |pat| > 0
    requires forall i | 0 <= i < |s| :: !OccursAt(s, pat, i)
    ensures ReplaceAll(s, pat, rep) == s
  {
    assert s + "" == s;
    ReplaceAllCopies(s, "", pat, rep);
  }

  /** The first occurrence is replaced, what precedes it is kept and the
      scan resumes just after it. */
  lemma ReplaceAllAtFirstOccurrence(a: string, b: string, pat: string, rep: string)
    requires |pat| > 0
    requires forall i | 0 <= i < |a| :: !OccursAt(a + pat + b, pat, i)
    ensures ReplaceAll(a + pat + b, pat, rep) == a + rep + ReplaceAll(b, pat, rep)
  {
    assert a + pat + b == a + (pat + b);
    ReplaceAllCopies(a, pat + b, pat, rep);
    ReplaceAllFront(pat, b, rep);
  }
}
